=== FILE: README.md ===
# Brick breaker rules in Dafny

A model of the game rules of the single-file Swing game `BrickBreaker.java`.
It covers the following parts of the game:

- the level generator (a 6 × 10 grid with holes keyed on the level number);
- the collision helpers (`clamp`, `circleRectIntersect`, and the JDK circle and rectangle tests the game calls);
- the choice of the brick face a ball bounces off;
- one fixed-step `update` frame: paddle steering, pinning served balls, falling pickups, balls in flight, losing a ball, and the level-cleared check;
- the four power-ups;
- `resetAll`, `addBallOnPaddle` and the high-score save decision;
- the keyboard handlers.

Every operation is a pure function from one game state (`Session.Game`) to the next.
The properties below are proved about those functions.

Coordinates are exact reals.
Trigonometry, `Math.hypot` and the random choices are parameters.
`Flight.Env` supplies the length of a velocity, the paddle deflection angle, the multi-ball rotation, and the random drop for each destroyed brick.
A per-ball `aim` supplies the launch angle.
Whether the high-score file write succeeds is a boolean parameter, and so is the value read at start-up.
`Flight.Sound` names the two facts the rules need from that mathematics:

- a length is never negative;
- a deflection of at most 65 degrees still has a positive cosine.

Some behaviours of the code worth knowing:

- P toggles the pause in every phase, including the game-over screen (BrickBreaker.java:414; `Commands.PauseLeavesGameOver`).
- Space launches the served balls whenever the game waits for a launch, paused or not (BrickBreaker.java:402-412; `Commands.SpaceLaunches`).
- The launch angle is `80 + nextInt(20) - 10` degrees, so 70 to 89 (BrickBreaker.java:407).
- The frame in which the last life is lost still runs the level-cleared check (BrickBreaker.java:204-208 and 269-279).

The modules follow the program's structure:

- `Geometry`: clamp, circle and rectangle tests, bounce side, reflection;
- `Entities`: paddle, ball, brick, pickup;
- `Level`: `initLevel`;
- `Session`: game state, `resetAll`, `addBallOnPaddle`, `saveHighScore`, `loadHighScore`;
- `Flight`: the paddle and a single ball in one frame;
- `PowerUps`: `applyPowerUp` and the pickup loop;
- `Tick`: `update`;
- `Commands`: the key handlers and the overlay phase;
- `Invariant`: a state invariant kept by every operation.

## Model

| member | source | states |
|---|---|---|
| Geometry.Clamp | BrickBreaker.java:438-440 | The result is never below `lo`, and not above `hi` when `lo <= hi`. It is `v` inside the interval, `lo` below it, `hi` above it, and `lo` when the interval is empty. |
| Geometry.NearestIsClosest | BrickBreaker.java:432-434 | Along one axis, the clamped coordinate is at least as close to the centre as any point of the interval. |
| Geometry.SomePointWithinMeansIntersect | BrickBreaker.java:431-436 | If any point of the rectangle is within the radius of the centre (boundary included), `circleRectIntersect` succeeds. |
| Geometry.IntersectHasWitness | BrickBreaker.java:431-436 | Conversely, when the test succeeds, the clamped point lies in the rectangle and within the radius. |
| Geometry.IntersectWithinGrownRect | BrickBreaker.java:431-436 | An intersecting centre lies inside the rectangle grown by the radius on every side. |
| Geometry.CircleRectIntersect | BrickBreaker.java:431-436 | The brick test: the rectangle point nearest the centre is within the radius, boundary included; the lemmas above characterise it. |
| Geometry.CircleTouchesRect | BrickBreaker.java:214 | The JDK circle-versus-rectangle test used for the paddle: strict, with positive sizes; it implies the brick test. |
| Geometry.RectsIntersect | BrickBreaker.java:176 | The JDK rectangle test used for pickups: both rectangles non-empty and their interiors overlap. |
| Geometry.RectsIntersectIff | BrickBreaker.java:176 | Two rectangles intersect exactly when some point lies strictly inside both. |
| Geometry.BounceSide | BrickBreaker.java:232-241 | The chosen face has the least overlap of the four. Every face earlier in the order left, right, top, bottom has strictly more overlap. |
| Geometry.BounceSideUnique | BrickBreaker.java:237-241 | Those two conditions determine the face: any face meeting them is the chosen one. |
| Geometry.Reflect | BrickBreaker.java:238-241 | Both velocity components keep their magnitude. Hitting the left (top) face makes vx (vy) non-positive, and the right (bottom) face non-negative; the other component is unchanged. |
| Geometry.ReflectIdempotent | BrickBreaker.java:238-241 | Reflecting twice off the same face is reflecting once. A ball already moving away from the face is not changed. |
| Geometry.ReflectKeepsSpeed | BrickBreaker.java:238-241 | Reflection keeps the squared magnitude of the velocity. |
| Level.CellsFrom | BrickBreaker.java:104-108 | The scanned cells are grid cells in strictly increasing row-major order, at most one per remaining grid position. |
| Level.AscendingDistinct | BrickBreaker.java:104-105 | Cells in increasing row-major order are distinct grid cells. |
| Level.CellsFromMembership | BrickBreaker.java:104-108 | A cell receives a brick exactly when it is in the grid, in the scanned part of it, and not a hole under either hole rule. |
| Level.LayoutComplete | BrickBreaker.java:107-108 | Every grid cell that is not a hole receives a brick. |
| Level.LayoutBricks | BrickBreaker.java:104-113 | One brick per kept cell, in scan order, with no cell used twice. Each brick sits on its cell with its row's hit-points `1 + row/2`, which lie between 1 and 3. |
| Level.LayoutSize | BrickBreaker.java:99-105 | A level has at most 60 bricks. |
| Level.LayoutFull | BrickBreaker.java:107 | A level that is neither even nor a multiple of three has exactly 60 bricks. |
| Level.LayoutAllAlive | BrickBreaker.java:109 | Every brick of a new level is alive. |
| Level.LayoutFromPlace | BrickBreaker.java:104-113 | The bricks the nested loops add are those of the kept cells, in order. |
| Level.InitLevel | BrickBreaker.java:96-115 | The nested row and column loops build exactly the level's layout. |
| Session.StartPaddle | BrickBreaker.java:80 | The new paddle is 120 by 14, centred horizontally, with its top 50 px above the bottom edge. |
| Session.AddBallOnPaddle | BrickBreaker.java:88-94 | Appends one sticky ball at rest with radius 10 and speed 300, resting on the paddle's centre. Sets waiting-to-launch and changes nothing else. |
| Session.ResetAll | BrickBreaker.java:75-86 | Score 0, 3 lives, level 1 with its layout, the start paddle, exactly one sticky ball on the paddle, no pickups, not paused, waiting. The field, the held keys and the high score carry over. |
| Session.ResetAllForgets | BrickBreaker.java:75-86 | A restart depends only on the field size, the held keys and the high score. |
| Session.ResetAllIdempotent | BrickBreaker.java:75-86 | Restarting twice is restarting once. |
| Session.ResetAllFullGrid | BrickBreaker.java:75-79 | A restart lays out all 60 bricks, all alive. |
| Session.SaveHighScore | BrickBreaker.java:126-133 | The high score never falls. After a successful write it is at least the score, and it only ever becomes the score. A failed write changes nothing, and nothing but the high score ever changes. |
| Session.SaveHighScoreIsMax | BrickBreaker.java:128-130 | A successful save leaves the larger of score and high score. |
| Session.SaveHighScoreIdempotent | BrickBreaker.java:126-133 | Saving again after a successful save changes nothing. |
| Session.NewGame | BrickBreaker.java:53-61 | A new panel starts from the stored high score, or 0 when none could be read, then restarts: score 0, 3 lives, level 1 with its layout, the start paddle with one ball served on it, no pickups, no key held, waiting. A restart of the new game changes nothing. |
| Flight.MovePaddle | BrickBreaker.java:157-161 | Only the paddle's x changes. Left alone moves it 460·dt to the left and right alone 460·dt to the right whenever that lands inside the margins; a step that would overshoot a margin lands exactly on it. The paddle ends at least 6 px from the left edge, and from the right edge when the paddle fits. With both keys or neither held it does not move. |
| Flight.MovePaddleBack | BrickBreaker.java:157-161 | Steering left for dt and then right for dt returns the paddle to where it was, when neither step reaches a margin. |
| Flight.Pin | BrickBreaker.java:164-170 | A sticky ball sits on top of the paddle's centre; any other ball is unchanged. |
| Flight.PinServedBall | BrickBreaker.java:164-170 | A ball just served onto the paddle is already where pinning puts it. |
| Flight.PinIdempotent | BrickBreaker.java:164-170 | Pinning twice is pinning once. |
| Flight.PinSticky | BrickBreaker.java:163-171 | While waiting to launch every ball is pinned, otherwise none is. Only the balls change. |
| Flight.Advance | BrickBreaker.java:188-189 | The ball moves by its velocity times dt; nothing else about it changes. |
| Flight.AdvanceCompose | BrickBreaker.java:188-189 | Moving for s then t seconds is moving for s + t, and moving for no time leaves the ball where it is. |
| Flight.Walls | BrickBreaker.java:191-194 | Speeds along both axes are kept. Afterwards the ball is inside the right and top walls, and inside the left wall when it fits. A wall it crossed puts it back against that wall and sends it away; a wall it did not cross leaves that axis alone. |
| Flight.WallsInside | BrickBreaker.java:191-194 | A ball inside the three walls is untouched. |
| Flight.PaddleBounce | BrickBreaker.java:213-226 | A ball not touching the paddle is unchanged. A touching ball is lifted to 0.1 px above the paddle; with sound mathematics and a positive nominal speed it leaves upwards. |
| Flight.PaddleBounceClears | BrickBreaker.java:224 | After the bounce the ball no longer touches the paddle. |
| Flight.FirstHit | BrickBreaker.java:229-256 | Finds the first brick in list order that is alive and intersects the ball, or reports that there is none. |
| Flight.FirstHitUnique | BrickBreaker.java:229-256 | A hit brick with no hit brick before it is the one found. |
| Flight.HitBrick | BrickBreaker.java:232-253 | The score grows by 10 and that brick alone loses one hit-point. The ball's velocity is reflected off the face of least overlap. A brick that dies with a drop leaves a 24 by 14 pickup falling at 140 px/s, centred horizontally on the brick with its top edge on the brick's centre line. |
| PowerUps.Scale | BrickBreaker.java:310-312 | Nominal speed and both velocity components are multiplied by the factor; nothing else changes. |
| PowerUps.ScaleAll | BrickBreaker.java:286 | Every ball is scaled, in order. |
| PowerUps.ScaleCompose | BrickBreaker.java:310-312 | Scaling by s then t is scaling by s·t. |
| PowerUps.Turned | BrickBreaker.java:303-308 | The copy is a released clone of the ball with its velocity rotated. |
| PowerUps.Clones | BrickBreaker.java:289-296 | For each ball in order: one copy turned +12 degrees, then one turned -12 degrees. |
| Entities.CloneBall | BrickBreaker.java:465-469 | A clone is the ball released: unstuck, and otherwise identical. |
| PowerUps.ClonesAreReleasedCopies | BrickBreaker.java:465-469 | Every clone is non-sticky with its source's position, radius and nominal speed. |
| PowerUps.ApplyPowerUp | BrickBreaker.java:282-301 | EXPAND widens the paddle by 40, capped at 220. SLOW replaces every ball by itself with speed and velocity scaled by 0.85, keeping the count and order. MULTI keeps the balls and appends the clones, tripling the count. LIFE adds one life. Nothing else changes. |
| PowerUps.ExpandReachesCap | BrickBreaker.java:284 | From 180 px the paddle reaches 220 in one catch; narrower paddles grow by exactly 40. |
| PowerUps.Fall | BrickBreaker.java:175 | A pickup moves down by its vy times dt; nothing else about it changes. |
| PowerUps.FallCompose | BrickBreaker.java:175 | Falling for s then t seconds is falling for s + t, and falling for no time leaves the pickup where it is. |
| PowerUps.PowerUpPass | BrickBreaker.java:174-182 | Earlier pickups stay in front, in order. Every pickup kept is at most 30 px below the bottom edge. |
| PowerUps.PowerUpPassWidens | BrickBreaker.java:174-182 | Within the 220 px cap, catching pickups only widens the paddle to the right; its position and height stay. |
| PowerUps.PowerUpPassKeeps | BrickBreaker.java:174-182 | The pickups kept are fallen pickups of the loop, in order: every one that stays clear of the paddle as it ends the loop and at most 30 px below the bottom edge is kept, and only ones clear of the paddle as it started and within those 30 px are. |
| PowerUps.PowerUpPassLives | BrickBreaker.java:174-178 | Caught LIFE pickups are applied: at least one life per LIFE pickup touching the paddle as it started, at most one per LIFE pickup touching it as it ends. |
| PowerUps.PowerUpPassAtCap | BrickBreaker.java:174-182 | With the paddle at its cap, the kept pickups are exactly the fallen ones clear of the paddle and within 30 px of the bottom, and one life is added per LIFE pickup caught. |
| PowerUps.PowerUpPassAtCapApplies | BrickBreaker.java:174-182 | With the paddle at its cap, the pass is exactly the power-ups of the caught pickups applied one after another, in order, with the pickups that stay kept. |
| PowerUps.ApplyAllCounts | BrickBreaker.java:282-301 | A run of power-ups multiplies the ball count by 3 per MULTI and adds one life per LIFE. |
| PowerUps.PowerUpPassKeepsBalls | BrickBreaker.java:174-178 | Unless a SLOW or MULTI touches the paddle, the pickup loop leaves the balls exactly as they were. |
| PowerUps.PowerUpPassExpands | BrickBreaker.java:174-178 | An EXPAND touching the paddle widens it to at least its width plus 40, or the 220 px cap. |
| PowerUps.ApplyPowerUpFrame | BrickBreaker.java:282-301 | A pickup leaves score, bricks, level, flags and the paddle's position and height alone, and never takes a life. |
| PowerUps.PowerUpPassFrame | BrickBreaker.java:173-182 | The whole pickup loop changes only balls, pickups, paddle width and, upwards, lives. |
| Tick.TotalHpDamage | BrickBreaker.java:243 | Taking one hit-point off one brick takes one off the total. |
| Tick.WornTransitive | BrickBreaker.java:229-256 | Wearing bricks down twice is wearing them down. |
| Tick.Strike | BrickBreaker.java:213-256 | Paddle bounce, then at most one brick hit. Only score, bricks and pickups change; the score grows by 0 or 10; earlier pickups stay in front. |
| Tick.StrikeMisses | BrickBreaker.java:213-256 | A ball that touches no live brick after the paddle bounce leaves the game unchanged and is only bounced. |
| Tick.StrikeHitsFirst | BrickBreaker.java:228-256 | A ball touching live brick i and none before it hits brick i: ten points, one hit-point off brick i, every other brick unchanged. |
| Tick.StrikeAccounting | BrickBreaker.java:229-256 | Score plus ten times the total hit-points is unchanged. Bricks only lose hit-points, dead bricks are untouched, and none goes below zero. |
| Tick.HitAccounting | BrickBreaker.java:243-244 | Hitting a live brick trades one hit-point for ten points. |
| Tick.LoseBall | BrickBreaker.java:199-209 | One life is spent. With lives left, a new ball is served and the game waits. Otherwise the game pauses and the high score becomes the score if the save succeeded and the score beats it, and stays otherwise. Score, bricks, level, paddle and pickups are untouched. |
| Tick.KeptEmpty | BrickBreaker.java:185-198 | No ball stays in play exactly when every ball is unserved and falls past the bottom edge after the walls. |
| Tick.BallPass | BrickBreaker.java:184-257 | The ball loop never adds balls beyond those handled and pending; what it keeps and when it spends a life are the two lemmas below. |
| Tick.BallPassLosesLife | BrickBreaker.java:184-211 | The ball loop spends a life exactly when there are balls and every one flies out. That frame scores nothing, leaves the bricks alone, and ends with one ball served on the paddle, or none at game over. |
| Tick.BallPassSurvivors | BrickBreaker.java:184-257 | When no life is spent, the balls after the loop are the balls still in play, in order: served balls unchanged, the others with their size and speed, unserved, at the across position their flight and the walls give. Lost balls are gone. |
| Tick.BallPassBalance | BrickBreaker.java:185-257 | Over all balls, score plus ten times the total hit-points is unchanged, and the score grows by at most 10 per ball. |
| Tick.BallPassWorn | BrickBreaker.java:185-257 | Over all balls, bricks are only worn down. |
| Tick.BallPassFrame | BrickBreaker.java:185-257 | The ball loop keeps the field, paddle, level and held keys. At most one life is spent, a pause it sets means the game is over, and earlier pickups stay in front. |
| Tick.AnyAliveIff | BrickBreaker.java:270-271 | The scan finds a live brick exactly when one exists. |
| Tick.LayoutHasLiveBrick | BrickBreaker.java:96-115 | Every level has a live brick (row 0, column 1 is never a hole). |
| Tick.ClearLevel | BrickBreaker.java:269-279 | With a brick alive nothing changes. Otherwise the level goes up by one with its layout, and balls are sped up by 8% in order; if none are left, one is served and the game waits. Only level, bricks, balls and the waiting flag can change. |
| Tick.ClearLevelLeavesLiveBrick | BrickBreaker.java:269-279 | After the level-cleared check some brick is alive. |
| Tick.Update | BrickBreaker.java:154-155 | A paused game does not change. |
| Tick.CatchScore | BrickBreaker.java:173-182 | Catching pickups scores nothing. |
| Tick.PlayBalance | BrickBreaker.java:185-257 | The ball loop never loses points, and scores exactly ten per hit-point taken. |
| Tick.UpdateScore | BrickBreaker.java:154-280 | A frame never lowers the score and changes it in steps of 10. |
| Tick.UpdateLevel | BrickBreaker.java:154-280 | An unpaused frame keeps the field size, keeps the level or advances it by one with the new layout, leaves some brick alive, and costs at most one life. |
| Tick.UpdateLosesLife | BrickBreaker.java:154-280 | An unpaused frame that starts with a live brick and ends with fewer lives spends exactly one, scores nothing, hits no brick and stays on its level. |
| Commands.PhaseOf | BrickBreaker.java:356-369 | The overlay phase: game over iff paused with negative lives, paused iff paused otherwise, waiting iff unpaused and waiting, playing iff neither. |
| Commands.LaunchBall | BrickBreaker.java:404-410 | A launched ball is released with only its velocity changed. With a positive nominal speed and an angle strictly between 0 and 90 degrees it heads up and to the right. A ball in flight is untouched. |
| Commands.LaunchAll | BrickBreaker.java:404-410 | Every ball is launched in order, each with its own angle. |
| Commands.KeyPressed | BrickBreaker.java:397-420 | Left and right set their held flag. Space, while waiting, launches every ball by `LaunchAll` (served balls get a velocity, balls in flight are untouched) and ends the wait; otherwise it changes nothing. P toggles the pause. R saves the high score and restarts. Other keys change nothing. |
| Commands.KeyReleased | BrickBreaker.java:422-428 | Only left and right are tracked; releasing clears the flag. |
| Commands.PressRelease | BrickBreaker.java:397-428 | Pressing a movement key that was not held and releasing it restores the game exactly. |
| Commands.PauseTwice | BrickBreaker.java:414 | P twice is no change. |
| Commands.PauseLeavesGameOver | BrickBreaker.java:414 | P on the game-over screen resumes a game whose lives are negative. |
| Commands.RestartWaits | BrickBreaker.java:415-418 | R from any phase waits for a launch with score 0 and 3 lives, keeping the best score. |
| Commands.SpaceLaunches | BrickBreaker.java:402-412 | Space while waiting starts play, and every formerly served ball heads up and to the right. |
| Commands.GameOverFrozen | BrickBreaker.java:154-155 | Frames change nothing after game over. |
| Invariant.ResetAllValid | BrickBreaker.java:75-86 | A restart satisfies the state invariant: score a non-negative multiple of 10, level from 1, paddle width from 120 to 220 and height 14, bricks of at most 3 hit-points, balls of radius 10 with positive speed that are sticky only while waiting. |
| Invariant.NewGameValid | BrickBreaker.java:53-61 | A new panel satisfies the invariant. |
| Invariant.ApplyPowerUpValid | BrickBreaker.java:282-301 | Every power-up keeps the invariant. |
| Invariant.PowerUpPassValid | BrickBreaker.java:173-182 | The pickup loop keeps the invariant. |
| Invariant.StrikeValid | BrickBreaker.java:213-256 | A bounce and hit keep the invariant. |
| Invariant.LoseBallValid | BrickBreaker.java:196-211 | Losing the last ball keeps the invariant. |
| Invariant.BallPassValid | BrickBreaker.java:184-257 | The ball loop keeps the invariant. |
| Invariant.ClearLevelValid | BrickBreaker.java:269-279 | The level-cleared check keeps the invariant. |
| Invariant.UpdateValid | BrickBreaker.java:154-280 | A whole frame keeps the invariant. |
| Invariant.KeyPressedValid | BrickBreaker.java:397-420 | Every key press keeps the invariant. |
| Invariant.KeyReleasedValid | BrickBreaker.java:422-428 | Every key release keeps the invariant. |

## Left out

- Rendering, the HUD, the overlays' drawing and `drawLives` are not modelled. The overlay's phase choice is modelled as `Commands.PhaseOf`.
- Particles and `spawnSparks` are not modelled. They are cosmetic and random, and no rule reads them.
- The game loop thread, the nano-time accumulator and `repaint` are not modelled. A frame is one call of `Tick.Update` with its `dt`.
- File I/O for the high score is reduced to parameters. `NewGame` takes the stored value (absent when missing or unparsable). `SaveHighScore` takes whether the write succeeded.
- `Math.sin`, `Math.cos`, `Math.atan2`, `Math.hypot` and `Math.toRadians` are not computed. They come in through `Flight.Env` and the per-ball launch `aim`, and `Flight.Sound` states the only facts the proofs use.
- `Random` (the 12% drop chance, `PowerUpType.random`, the launch angle) is not modelled. Its outcome is the `loot` and `aim` parameters.
- Java `double` rounding is not modelled: coordinates are exact reals.
- The score and lives are unbounded integers. Java's 32-bit `int` overflow is not modelled; a game would need over 200 million brick hits to reach it.
- Flight.PaddleBounce: states the upward exit only under `Flight.Sound`, because the angle comes from the platform's trigonometry.
- Commands.LaunchBall: states the up-and-right direction only for angles strictly between 0 and 90 degrees. The program's 70 to 89 degrees is the caller's `aim`.
- Flight.MovePaddle: the paddle is clamped before the pickups of the same frame. An EXPAND caught near the right edge can leave the paddle past the right margin until the next frame; this is modelled as written.
- Tick.UpdateLevel: bounds the lives after a frame from below only, because a caught LIFE pickup adds a life in the same frame.
- Key events are applied between frames, one at a time. In the program `keyPressed` and `keyReleased` run on the Swing event thread with no lock against `update` on the game thread (BrickBreaker.java:154, 398, 423), so a key can land in the middle of a frame; that interleaving is not modelled.

=== FILE: commands.dfy ===
/**
 * The keyboard: held movement keys, the launch, pause and restart keys,
 * and the phase of the game the overlay shows.
 */
module Commands {
  import opened Entities
  import opened Session
  import opened Flight
  import opened Tick

  /** Left arrow or A, right arrow or D, space, P, R, and every other key. */
  datatype Key = LeftKey | RightKey | SpaceKey | PauseKey | RestartKey | OtherKey

  /** The phase named by the overlay: paused at no lives left is game over. */
  datatype Phase = Playing | WaitingToLaunch | Paused | GameOver

  function PhaseOf(g: Game): (p: Phase)
    ensures p == GameOver <==> g.paused && g.lives < 0
    ensures p == Paused <==> g.paused && g.lives >= 0
    ensures p == WaitingToLaunch <==> !g.paused && g.waitingToLaunch
    ensures p == Playing <==> !g.paused && !g.waitingToLaunch
  {
    if g.paused then (if g.lives < 0 then GameOver else Paused)
    else if g.waitingToLaunch then WaitingToLaunch
    else Playing
  }

  const LaunchSideFactor: real := 0.6

  /**
   * Releases a served ball along `aim`, an angle drawn from 70 to 89
   * degrees above the horizontal: 60% of the nominal speed sideways, the
   * full speed upwards.  A ball already in flight is left alone.
   */
  function LaunchBall(b: Ball, aim: Dir): (r: Ball)
    ensures !r.sticky
    ensures !b.sticky ==> r == b
    ensures b.sticky ==> r == b.(sticky := false, vx := r.vx, vy := r.vy)
    ensures b.sticky && aim.sin > 0.0 && b.speed > 0.0 ==> r.vy < 0.0
    ensures b.sticky && aim.cos > 0.0 && b.speed > 0.0 ==> r.vx > 0.0
  {
    if b.sticky then
      assert aim.sin > 0.0 && b.speed > 0.0 ==> aim.sin * b.speed > 0.0;
      assert aim.cos > 0.0 && b.speed > 0.0 ==> aim.cos * (b.speed * LaunchSideFactor) > 0.0;
      b.(sticky := false, vx := aim.cos * (b.speed * LaunchSideFactor), vy := -aim.sin * b.speed)
    else b
  }

  /** Every ball launched, ball `i` along `aim(i)`. */
  function LaunchAll(bs: seq<Ball>, aim: nat -> Dir): (r: seq<Ball>)
    ensures |r| == |bs|
    ensures forall i :: 0 <= i < |bs| ==> r[i] == LaunchBall(bs[i], aim(i))
  {
    seq(|bs|, i requires 0 <= i < |bs| => LaunchBall(bs[i], aim(i)))
  }

  /**
   * A key going down.  Space launches the served balls only while a launch
   * is awaited, paused or not; P toggles the pause, also after the game is
   * over; R saves the high score and restarts.
   */
  function KeyPressed(g: Game, k: Key, aim: nat -> Dir, saved: bool): (r: Game)
    ensures k == LeftKey ==> r == g.(left := true)
    ensures k == RightKey ==> r == g.(right := true)
    ensures k == SpaceKey && !g.waitingToLaunch ==> r == g
    ensures k == SpaceKey && g.waitingToLaunch ==>
              && r == g.(balls := r.balls, waitingToLaunch := false) && |r.balls| == |g.balls|
              && forall i :: 0 <= i < |r.balls| ==> !r.balls[i].sticky
    ensures k == SpaceKey && g.waitingToLaunch ==> r.balls == LaunchAll(g.balls, aim)
    ensures k == PauseKey ==> r == g.(paused := !g.paused)
    ensures k == RestartKey ==> r == ResetAll(SaveHighScore(g, saved))
    ensures k == OtherKey ==> r == g
  {
    match k
    case LeftKey => g.(left := true)
    case RightKey => g.(right := true)
    case SpaceKey =>
      if g.waitingToLaunch then g.(balls := LaunchAll(g.balls, aim), waitingToLaunch := false) else g
    case PauseKey => g.(paused := !g.paused)
    case RestartKey => ResetAll(SaveHighScore(g, saved))
    case OtherKey => g
  }

  /** A key coming up: only the movement keys are tracked. */
  function KeyReleased(g: Game, k: Key): (r: Game)
    ensures k == LeftKey ==> r == g.(left := false)
    ensures k == RightKey ==> r == g.(right := false)
    ensures k != LeftKey && k != RightKey ==> r == g
  {
    match k
    case LeftKey => g.(left := false)
    case RightKey => g.(right := false)
    case _ => g
  }

  /** Pressing and releasing a movement key restores the held-key state it started from. */
  lemma PressRelease(g: Game, k: Key, aim: nat -> Dir, saved: bool)
    requires k == LeftKey || k == RightKey
    requires k == LeftKey ==> !g.left
    requires k == RightKey ==> !g.right
    ensures KeyReleased(KeyPressed(g, k, aim, saved), k) == g
  {
  }

  /** P twice gives back the same game. */
  lemma PauseTwice(g: Game, aim: nat -> Dir, saved: bool)
    ensures KeyPressed(KeyPressed(g, PauseKey, aim, saved), PauseKey, aim, saved) == g
  {
  }

  /** P on the game-over screen resumes a game with no lives left. */
  lemma PauseLeavesGameOver(g: Game, aim: nat -> Dir, saved: bool)
    requires PhaseOf(g) == GameOver
    ensures var r := KeyPressed(g, PauseKey, aim, saved);
            !r.paused && r.lives < 0 && PhaseOf(r) != GameOver
  {
  }

  /** R from any phase leads to a fresh game waiting for the launch, with the best score kept. */
  lemma RestartWaits(g: Game, aim: nat -> Dir, saved: bool)
    ensures var r := KeyPressed(g, RestartKey, aim, saved);
            && PhaseOf(r) == WaitingToLaunch && r.score == 0 && r.lives == StartLives
            && r.highScore >= g.highScore && (saved ==> r.highScore >= g.score)
  {
  }

  /**
   * Space while waiting (and not paused) starts play: no served ball is
   * left, and each launched ball heads up and to the right when its angle
   * lies strictly between 0 and 90 degrees.
   */
  lemma SpaceLaunches(g: Game, aim: nat -> Dir, saved: bool)
    requires PhaseOf(g) == WaitingToLaunch
    requires forall i :: 0 <= i < |g.balls| ==> g.balls[i].speed > 0.0
    requires forall i: nat :: aim(i).sin > 0.0 && aim(i).cos > 0.0
    ensures var r := KeyPressed(g, SpaceKey, aim, saved);
            && PhaseOf(r) == Playing
            && forall i :: 0 <= i < |r.balls| && g.balls[i].sticky ==> r.balls[i].vy < 0.0 && r.balls[i].vx > 0.0
  {
    var r := KeyPressed(g, SpaceKey, aim, saved);
    forall i | 0 <= i < |r.balls| && g.balls[i].sticky
      ensures r.balls[i].vy < 0.0 && r.balls[i].vx > 0.0
    {
      assert r.balls[i] == LaunchBall(g.balls[i], aim(i));
    }
  }

  /** A finished game stands still: frames change nothing until P or R. */
  lemma GameOverFrozen(g: Game, dt: real, env: Env)
    requires PhaseOf(g) == GameOver
    ensures Update(g, dt, env) == g
  {
  }
}

=== FILE: entities.dfy ===
/**
 * The entities of the game as plain values: paddle, ball, brick and the
 * falling power-up.  Particles are cosmetic and not part of this model.
 */
module Entities {
  import opened Geometry

  datatype Paddle = Paddle(x: real, y: real, w: real, h: real)

  /** A ball; while `sticky` it rides on the paddle and its velocity is not integrated. */
  datatype Ball = Ball(x: real, y: real, vx: real, vy: real, r: real, speed: real, sticky: bool)

  /** A brick; it takes part in the game only while its hit-points are positive. */
  datatype Brick = Brick(x: real, y: real, w: real, h: real, hp: int)

  datatype PowerUpType = Expand | Slow | Multi | Life

  datatype PowerUp = PowerUp(x: real, y: real, vy: real, w: real, h: real, kind: PowerUpType)

  predicate Alive(b: Brick) {
    b.hp > 0
  }

  function PaddleRect(p: Paddle): Rect { Rect(p.x, p.y, p.w, p.h) }

  function BrickRect(b: Brick): Rect { Rect(b.x, b.y, b.w, b.h) }

  function PowerUpRect(p: PowerUp): Rect { Rect(p.x, p.y, p.w, p.h) }

  function CenterX(b: Brick): real { b.x + b.w / 2.0 }

  function CenterY(b: Brick): real { b.y + b.h / 2.0 }

  /** A released copy of a ball: same position, radius, velocity and nominal speed. */
  function CloneBall(b: Ball): (r: Ball)
    ensures !r.sticky && r.(sticky := b.sticky) == b
  {
    b.(sticky := false)
  }

  /** A freshly dropped pickup of the given kind, falling at 140 px/s, 24 by 14 pixels. */
  function NewPowerUp(x: real, y: real, t: PowerUpType): PowerUp {
    PowerUp(x, y, 140.0, 24.0, 14.0, t)
  }

  /** The sticky ball placed on the paddle: radius 10, speed 300 px/s, at rest. */
  function BallOnPaddle(p: Paddle): Ball {
    Ball(p.x + p.w / 2.0, p.y - 10.0, 0.0, 0.0, 10.0, 300.0, true)
  }
}

=== FILE: flight.dfy ===
/**
 * One frame of movement for the paddle and a single ball: steering and
 * clamping the paddle, keeping served balls on it, integrating a ball,
 * the wall bounces, the paddle deflection and the brick hit.
 */
module Flight {
  import opened Geometry
  import opened Entities
  import opened Optional
  import opened Session

  /** Sine and cosine of one angle. */
  datatype Dir = Dir(sin: real, cos: real)

  /**
   * What the rules take from the platform rather than compute themselves:
   * `hypot(vx, vy)` the length of a velocity; `deflect(h)` the sine and
   * cosine of h times 65 degrees; `rotate(v, d)` the velocity v turned by d
   * degrees; `loot(k, i)` the power-up, if any, left by brick i when the
   * k-th ball of the frame destroys it (a 12% chance of a uniformly chosen
   * kind); `saved` whether writing the high-score file succeeds.
   */
  datatype Env = Env(
    hypot: (real, real) -> real,
    deflect: real -> Dir,
    rotate: (Vec, int) -> Vec,
    loot: (nat, nat) -> Option<PowerUpType>,
    saved: bool)

  /**
   * The facts about the platform's mathematics the rules rely on: lengths
   * are not negative and a deflection of at most 65 degrees either way
   * still points upwards.
   */
  ghost predicate Sound(env: Env) {
    && (forall vx, vy :: env.hypot(vx, vy) >= 0.0)
    && (forall h :: -1.0 <= h <= 1.0 ==> env.deflect(h).cos > 0.0)
  }

  const PaddleSpeed: real := 460.0
  const Margin: real := 6.0

  /** Rightmost allowed paddle position: 6 px clear of the right edge. */
  function PaddleLimit(g: Game): real {
    g.width as real - g.paddle.w - Margin
  }

  /**
   * Steering: left alone moves left, right alone moves right, both or none
   * hold still; then the paddle is clamped into the field with a 6 px
   * margin on each side.
   */
  function MovePaddle(g: Game, dt: real): (r: Game)
    ensures r == g.(paddle := g.paddle.(x := r.paddle.x))
    ensures r.paddle.x >= Margin
    ensures Margin <= PaddleLimit(g) ==> r.paddle.x <= PaddleLimit(g)
    ensures g.left == g.right && Margin <= g.paddle.x <= PaddleLimit(g) ==> r.paddle.x == g.paddle.x
    ensures dt >= 0.0 && g.left && !g.right && Margin <= g.paddle.x ==> r.paddle.x <= g.paddle.x
    ensures dt >= 0.0 && g.right && !g.left && g.paddle.x <= PaddleLimit(g) ==> r.paddle.x >= g.paddle.x
    ensures g.left && !g.right && Margin <= g.paddle.x - PaddleSpeed * dt <= PaddleLimit(g) ==>
              r.paddle.x == g.paddle.x - PaddleSpeed * dt
    ensures g.right && !g.left && Margin <= g.paddle.x + PaddleSpeed * dt <= PaddleLimit(g) ==>
              r.paddle.x == g.paddle.x + PaddleSpeed * dt
    ensures g.left && !g.right && g.paddle.x - PaddleSpeed * dt < Margin <= PaddleLimit(g) ==>
              r.paddle.x == Margin
    ensures g.right && !g.left && Margin <= PaddleLimit(g) < g.paddle.x + PaddleSpeed * dt ==>
              r.paddle.x == PaddleLimit(g)
  {
    var x := if g.left && !g.right then g.paddle.x - PaddleSpeed * dt
             else if g.right && !g.left then g.paddle.x + PaddleSpeed * dt
             else g.paddle.x;
    g.(paddle := g.paddle.(x := Clamp(x, Margin, PaddleLimit(g))))
  }

  /**
   * Steering left for `dt` and then right for `dt` brings the paddle back,
   * as long as neither step reaches a margin.
   */
  lemma MovePaddleBack(g: Game, dt: real)
    requires g.left && !g.right
    requires Margin <= g.paddle.x - PaddleSpeed * dt <= PaddleLimit(g)
    requires Margin <= g.paddle.x <= PaddleLimit(g)
    ensures var there := MovePaddle(g, dt);
            MovePaddle(there.(left := false, right := true), dt) == g.(left := false, right := true)
  {
    var there := MovePaddle(g, dt);
    assert there.paddle.x == g.paddle.x - PaddleSpeed * dt;
  }

  /** A sticky ball is carried on top of the paddle's centre; any other ball is left alone. */
  function Pin(b: Ball, p: Paddle): (r: Ball)
    ensures r == b.(x := r.x, y := r.y)
    ensures b.sticky ==> r.x == p.x + p.w / 2.0 && r.y + r.r == p.y
    ensures !b.sticky ==> r == b
  {
    if b.sticky then b.(x := p.x + p.w / 2.0, y := p.y - b.r) else b
  }

  /** A ball just served onto the paddle is already where pinning puts it. */
  lemma PinServedBall(p: Paddle)
    ensures Pin(BallOnPaddle(p), p) == BallOnPaddle(p)
  {
  }

  /** Pinning twice is pinning once. */
  lemma PinIdempotent(b: Ball, p: Paddle)
    ensures Pin(Pin(b, p), p) == Pin(b, p)
  {
  }

  /** While a launch is awaited, every sticky ball follows the paddle. */
  function PinSticky(g: Game): (r: Game)
    ensures r == g.(balls := r.balls)
    ensures |r.balls| == |g.balls|
    ensures forall i :: 0 <= i < |g.balls| ==>
              r.balls[i] == (if g.waitingToLaunch then Pin(g.balls[i], g.paddle) else g.balls[i])
  {
    if g.waitingToLaunch then
      g.(balls := seq(|g.balls|, i requires 0 <= i < |g.balls| => Pin(g.balls[i], g.paddle)))
    else g
  }

  /** Moves a ball along its velocity for `dt` seconds. */
  function Advance(b: Ball, dt: real): (r: Ball)
    ensures r == b.(x := r.x, y := r.y)
    ensures r.x - b.x == b.vx * dt && r.y - b.y == b.vy * dt
  {
    b.(x := b.x + b.vx * dt, y := b.y + b.vy * dt)
  }

  /** Moving for `s` and then for `t` seconds is moving for `s + t`; no time, no move. */
  lemma AdvanceCompose(b: Ball, s: real, t: real)
    ensures Advance(Advance(b, s), t) == Advance(b, s + t)
    ensures Advance(b, 0.0) == b
  {
    assert b.vx * s + b.vx * t == b.vx * (s + t);
    assert b.vy * s + b.vy * t == b.vy * (s + t);
  }

  /**
   * The left, right and top walls, tested in that order: a ball past a wall
   * is put back against it and sent away from it.  The bottom is open.
   */
  function Walls(b: Ball, width: int): (r: Ball)
    ensures r == b.(x := r.x, y := r.y, vx := r.vx, vy := r.vy)
    ensures Abs(r.vx) == Abs(b.vx) && Abs(r.vy) == Abs(b.vy)
    ensures r.x + r.r <= width as real && r.y - r.r >= 0.0
    ensures 2.0 * b.r <= width as real ==> r.x - r.r >= 0.0
    ensures b.x - b.r < 0.0 && 2.0 * b.r <= width as real ==> r.x == b.r && r.vx >= 0.0
    ensures b.x + b.r > width as real ==> r.x + r.r == width as real && r.vx <= 0.0
    ensures b.y - b.r < 0.0 ==> r.y == b.r && r.vy >= 0.0
    ensures b.y - b.r >= 0.0 ==> r.y == b.y && r.vy == b.vy
    ensures 0.0 <= b.x - b.r && b.x + b.r <= width as real ==> r.x == b.x && r.vx == b.vx
  {
    var b1 := if b.x - b.r < 0.0 then b.(x := b.r, vx := Abs(b.vx)) else b;
    var b2 := if b1.x + b1.r > width as real then b1.(x := width as real - b1.r, vx := -Abs(b1.vx)) else b1;
    if b2.y - b2.r < 0.0 then b2.(y := b2.r, vy := Abs(b2.vy)) else b2
  }

  /** A ball that is inside the three walls does not bounce. */
  lemma WallsInside(b: Ball, width: int)
    requires b.x - b.r >= 0.0 && b.x + b.r <= width as real && b.y - b.r >= 0.0
    ensures Walls(b, width) == b
  {
  }

  /** A ball whose top has passed the bottom edge is lost. */
  predicate Lost(b: Ball, height: int) {
    b.y - b.r > height as real
  }

  /**
   * The paddle bounce: where the ball meets the paddle, from -1 at the left
   * end to 1 at the right end, picks an angle of up to 65 degrees off the
   * vertical; the ball leaves at that angle with at least its nominal speed,
   * lifted to 0.1 px above the paddle.
   */
  function PaddleBounce(b: Ball, p: Paddle, env: Env): (r: Ball)
    ensures !CircleTouchesRect(b.x, b.y, b.r, PaddleRect(p)) ==> r == b
    ensures CircleTouchesRect(b.x, b.y, b.r, PaddleRect(p)) ==>
              r == b.(y := r.y, vx := r.vx, vy := r.vy) && r.y + r.r + 0.1 == p.y
    ensures CircleTouchesRect(b.x, b.y, b.r, PaddleRect(p)) && Sound(env) && b.speed > 0.0 ==> r.vy < 0.0
  {
    if CircleTouchesRect(b.x, b.y, b.r, PaddleRect(p)) then
      var center := p.x + p.w / 2.0;
      var hitPos := Clamp((b.x - center) / (p.w / 2.0), -1.0, 1.0);
      var d := env.deflect(hitPos);
      var mag := Max(env.hypot(b.vx, b.vy), b.speed);
      assert b.speed > 0.0 && Sound(env) ==> d.cos * mag > 0.0;
      b.(vx := d.sin * mag, vy := -d.cos * mag, y := p.y - b.r - 0.1)
    else b
  }

  /** After a paddle bounce the ball is clear of the paddle, so it cannot bounce again at once. */
  lemma PaddleBounceClears(b: Ball, p: Paddle, env: Env)
    requires CircleTouchesRect(b.x, b.y, b.r, PaddleRect(p))
    ensures var r := PaddleBounce(b, p, env); !CircleTouchesRect(r.x, r.y, r.r, PaddleRect(p))
  {
    var r := PaddleBounce(b, p, env);
    assert r.r == b.r && r.y == p.y - b.r - 0.1;
    var n := Nearest(r.x, r.y, PaddleRect(p));
    assert n.y == p.y;
    var dy := r.y - n.y;
    assert dy == -(b.r + 0.1);
    assert Square(dy) > b.r * b.r by {
      assert Square(dy) == (b.r + 0.1) * (b.r + 0.1);
      assert (b.r + 0.1) * (b.r + 0.1) == b.r * b.r + 0.2 * b.r + 0.01;
    }
    SquareNonNegative(r.x - n.x);
    assert Dist2(r.x, r.y, n.x, n.y) == Square(r.x - n.x) + Square(dy);
  }

  /** A brick the ball can damage: alive and within the ball's radius. */
  predicate Hits(b: Ball, br: Brick) {
    Alive(br) && CircleRectIntersect(b.x, b.y, b.r, BrickRect(br))
  }

  /** The first brick at or after `from` that the ball hits, if any. */
  function FirstHit(b: Ball, bricks: seq<Brick>, from: nat): (r: Option<nat>)
    ensures r.Some? ==> from <= r.value < |bricks| && Hits(b, bricks[r.value])
    ensures r.Some? ==> forall j :: from <= j < r.value ==> !Hits(b, bricks[j])
    ensures r.None? ==> forall j :: from <= j < |bricks| ==> !Hits(b, bricks[j])
    decreases |bricks| - from
  {
    if from >= |bricks| then None
    else if Hits(b, bricks[from]) then Some(from)
    else FirstHit(b, bricks, from + 1)
  }

  /** A brick index that is hit with no hit before it is the one found. */
  lemma FirstHitUnique(b: Ball, bricks: seq<Brick>, i: nat)
    requires i < |bricks| && Hits(b, bricks[i])
    requires forall j :: 0 <= j < i ==> !Hits(b, bricks[j])
    ensures FirstHit(b, bricks, 0) == Some(i)
  {
  }

  const BrickPoints: int := 10

  /**
   * The ball hits brick `i`: it bounces off the face of least overlap, the
   * brick loses a hit-point and the score grows by 10.  A brick that dies
   * leaves the `drop`, if any, falling from its centre.
   */
  function HitBrick(g: Game, b: Ball, i: nat, drop: Option<PowerUpType>): (r: (Game, Ball))
    requires i < |g.bricks|
    ensures r.0 == g.(score := r.0.score, bricks := r.0.bricks, powerUps := r.0.powerUps)
    ensures r.0.score == g.score + BrickPoints
    ensures |r.0.bricks| == |g.bricks| && r.0.bricks[i] == g.bricks[i].(hp := g.bricks[i].hp - 1)
    ensures forall j :: 0 <= j < |g.bricks| && j != i ==> r.0.bricks[j] == g.bricks[j]
    ensures var dropped := !Alive(r.0.bricks[i]) && drop.Some?;
              && |r.0.powerUps| == |g.powerUps| + (if dropped then 1 else 0)
              && r.0.powerUps[..|g.powerUps|] == g.powerUps
              && (dropped ==>
                    r.0.powerUps[|g.powerUps|] == NewPowerUp(CenterX(g.bricks[i]) - 12.0, CenterY(g.bricks[i]), drop.value))
    ensures r.1 == b.(vx := r.1.vx, vy := r.1.vy)
    ensures Vec(r.1.vx, r.1.vy) == Reflect(Vec(b.vx, b.vy), BounceSide(b.x, b.y, b.r, BrickRect(g.bricks[i])))
  {
    var br := g.bricks[i];
    var v := Reflect(Vec(b.vx, b.vy), BounceSide(b.x, b.y, b.r, BrickRect(br)));
    var hit := br.(hp := br.hp - 1);
    var drops := if !Alive(hit) && drop.Some? then [NewPowerUp(CenterX(br) - 12.0, CenterY(br), drop.value)] else [];
    (g.(score := g.score + BrickPoints, bricks := g.bricks[i := hit], powerUps := g.powerUps + drops),
     b.(vx := v.x, vy := v.y))
  }
}

=== FILE: geometry.dfy ===
/**
 * The collision geometry of the game: clamping, the circle/rectangle tests
 * used for bricks, the paddle and power-ups, and the choice of the side a
 * ball bounces off a brick.  Coordinates are exact reals; the screen's y
 * axis points down.
 */
module Geometry {

  datatype Vec = Vec(x: real, y: real)

  /** Axis-aligned rectangle with its top-left corner at (x, y). */
  datatype Rect = Rect(x: real, y: real, w: real, h: real)

  function Min(a: real, b: real): real { if a <= b then a else b }

  function Max(a: real, b: real): real { if a >= b then a else b }

  function Abs(a: real): real { if a < 0.0 then -a else a }

  function Square(a: real): real { a * a }

  /** `v` bounded to [lo, hi]; when the interval is empty the lower bound wins. */
  function Clamp(v: real, lo: real, hi: real): (r: real)
    ensures lo <= r
    ensures lo <= hi ==> r <= hi
    ensures lo <= v <= hi ==> r == v
    ensures v < lo ==> r == lo
    ensures lo <= hi < v ==> r == hi
    ensures hi < lo ==> r == lo
  {
    Max(lo, Min(hi, v))
  }

  predicate InRect(rect: Rect, px: real, py: real) {
    rect.x <= px <= rect.x + rect.w && rect.y <= py <= rect.y + rect.h
  }

  function Dist2(ax: real, ay: real, px: real, py: real): real {
    Square(ax - px) + Square(ay - py)
  }

  /** The point of `rect` nearest to (cx, cy). */
  function Nearest(cx: real, cy: real, rect: Rect): Vec {
    Vec(Clamp(cx, rect.x, rect.x + rect.w), Clamp(cy, rect.y, rect.y + rect.h))
  }

  /**
   * The game's ball-versus-brick test: the rectangle point nearest to the
   * centre lies within the radius, boundary included.
   */
  predicate CircleRectIntersect(cx: real, cy: real, rad: real, rect: Rect) {
    var n := Nearest(cx, cy, rect);
    Dist2(cx, cy, n.x, n.y) <= rad * rad
  }

  /**
   * Ellipse2D.intersects for a circle: the interiors overlap.  Empty shapes
   * never intersect and the distance comparison is strict.
   */
  predicate CircleTouchesRect(cx: real, cy: real, rad: real, rect: Rect)
    ensures CircleTouchesRect(cx, cy, rad, rect) ==> CircleRectIntersect(cx, cy, rad, rect)
  {
    var n := Nearest(cx, cy, rect);
    rad > 0.0 && rect.w > 0.0 && rect.h > 0.0 && Dist2(cx, cy, n.x, n.y) < rad * rad
  }

  /** Point (x, y) lies strictly inside `rect`. */
  predicate Interior(rect: Rect, x: real, y: real) {
    rect.x < x < rect.x + rect.w && rect.y < y < rect.y + rect.h
  }

  /** Rectangle2D.intersects: non-empty rectangles whose interiors overlap. */
  predicate RectsIntersect(a: Rect, b: Rect) {
    && a.w > 0.0 && a.h > 0.0 && b.w > 0.0 && b.h > 0.0
    && b.x + b.w > a.x && b.y + b.h > a.y && b.x < a.x + a.w && b.y < a.y + a.h
  }
  /** Two rectangles intersect exactly when some point lies strictly inside both. */
  lemma RectsIntersectIff(a: Rect, b: Rect)
    ensures RectsIntersect(a, b) <==> exists x: real, y: real :: Interior(a, x, y) && Interior(b, x, y)
  {
    if RectsIntersect(a, b) {
      var x := (Max(a.x, b.x) + Min(a.x + a.w, b.x + b.w)) / 2.0;
      var y := (Max(a.y, b.y) + Min(a.y + a.h, b.y + b.h)) / 2.0;
      assert Interior(a, x, y) && Interior(b, x, y);
    }
  }


  /** Along one axis, the clamped point is at least as near as any point of the interval. */
  lemma NearestIsClosest(v: real, lo: real, hi: real, p: real)
    requires lo <= p <= hi
    ensures Square(v - Clamp(v, lo, hi)) <= Square(v - p)
  {
    var c := Clamp(v, lo, hi);
    if v < lo {
      assert c == lo;
      assert 0.0 < lo - v <= p - v;
      assert Square(v - p) - Square(v - c) == (p - lo) * (p + lo - 2.0 * v);
    } else if v > hi {
      assert c == hi;
      assert 0.0 < v - hi <= v - p;
      assert Square(v - p) - Square(v - c) == (hi - p) * (2.0 * v - p - hi);
    } else {
      assert c == v;
    }
  }

  /**
   * The intersection test is exact: it succeeds precisely when some point of
   * the (non-degenerate) rectangle lies within the radius of the centre.
   * This direction: any such point makes the test succeed.
   */
  lemma SomePointWithinMeansIntersect(cx: real, cy: real, rad: real, rect: Rect, px: real, py: real)
    requires InRect(rect, px, py)
    requires Dist2(cx, cy, px, py) <= rad * rad
    ensures CircleRectIntersect(cx, cy, rad, rect)
  {
    NearestIsClosest(cx, rect.x, rect.x + rect.w, px);
    NearestIsClosest(cy, rect.y, rect.y + rect.h, py);
  }

  /** The other direction: a successful test is witnessed by the nearest point. */
  lemma IntersectHasWitness(cx: real, cy: real, rad: real, rect: Rect)
    requires rect.w >= 0.0 && rect.h >= 0.0
    requires CircleRectIntersect(cx, cy, rad, rect)
    ensures InRect(rect, Nearest(cx, cy, rect).x, Nearest(cx, cy, rect).y)
    ensures Dist2(cx, cy, Nearest(cx, cy, rect).x, Nearest(cx, cy, rect).y) <= rad * rad
  {
  }

  lemma SquareNonNegative(a: real)
    ensures Square(a) >= 0.0
  {
    if a < 0.0 {
      assert Square(a) == (-a) * (-a);
    }
  }

  lemma NonNegativeSquareOrder(a: real, b: real)
    requires 0.0 <= a && 0.0 <= b && a * a <= b * b
    ensures a <= b
  {
    if a + b > 0.0 {
      var p := (a - b) * (a + b);
      assert p <= 0.0;
      assert a - b == p / (a + b);
    }
  }

  /** A |d| that squares to at most rad * rad is bounded by rad. */
  lemma SquareBound(d: real, rad: real)
    requires rad >= 0.0
    requires Square(d) <= rad * rad
    ensures -rad <= d <= rad
  {
    if d >= 0.0 {
      NonNegativeSquareOrder(d, rad);
    } else {
      NonNegativeSquareOrder(-d, rad);
    }
  }

  /** An intersecting circle's centre lies in the rectangle grown by the radius. */
  lemma IntersectWithinGrownRect(cx: real, cy: real, rad: real, rect: Rect)
    requires rad >= 0.0 && rect.w >= 0.0 && rect.h >= 0.0
    requires CircleRectIntersect(cx, cy, rad, rect)
    ensures rect.x - rad <= cx <= rect.x + rect.w + rad
    ensures rect.y - rad <= cy <= rect.y + rect.h + rad
  {
    var n := Nearest(cx, cy, rect);
    SquareNonNegative(cx - n.x);
    SquareNonNegative(cy - n.y);
    assert Square(cx - n.x) <= rad * rad;
    assert Square(cy - n.y) <= rad * rad;
    SquareBound(cx - n.x, rad);
    SquareBound(cy - n.y, rad);
  }

  // ----- choosing the bounce side -----

  datatype Side = LeftSide | RightSide | TopSide | BottomSide

  /** Position of a side in the fixed tie-break order left, right, top, bottom. */
  function Rank(s: Side): nat {
    match s
    case LeftSide => 0
    case RightSide => 1
    case TopSide => 2
    case BottomSide => 3
  }

  /** Penetration depth of the circle past the given face of the rectangle. */
  function Overlap(cx: real, cy: real, rad: real, rect: Rect, s: Side): real {
    match s
    case LeftSide => (cx + rad) - rect.x
    case RightSide => (rect.x + rect.w) - (cx - rad)
    case TopSide => (cy + rad) - rect.y
    case BottomSide => (rect.y + rect.h) - (cy - rad)
  }

  /**
   * The face the ball bounces off: one of least penetration, the earliest in
   * the tie-break order among those.
   */
  function BounceSide(cx: real, cy: real, rad: real, rect: Rect): (s: Side)
    ensures forall t: Side :: Overlap(cx, cy, rad, rect, s) <= Overlap(cx, cy, rad, rect, t)
    ensures forall t: Side :: Rank(t) < Rank(s) ==> Overlap(cx, cy, rad, rect, s) < Overlap(cx, cy, rad, rect, t)
  {
    var l := Overlap(cx, cy, rad, rect, LeftSide);
    var r := Overlap(cx, cy, rad, rect, RightSide);
    var t := Overlap(cx, cy, rad, rect, TopSide);
    var b := Overlap(cx, cy, rad, rect, BottomSide);
    var m := Min(Min(l, r), Min(t, b));
    if m == l then LeftSide
    else if m == r then RightSide
    else if m == t then TopSide
    else BottomSide
  }

  /** The two conditions above single out one side: any side meeting them is the chosen one. */
  lemma BounceSideUnique(cx: real, cy: real, rad: real, rect: Rect, s: Side)
    requires forall t: Side :: Overlap(cx, cy, rad, rect, s) <= Overlap(cx, cy, rad, rect, t)
    requires forall t: Side :: Rank(t) < Rank(s) ==> Overlap(cx, cy, rad, rect, s) < Overlap(cx, cy, rad, rect, t)
    ensures s == BounceSide(cx, cy, rad, rect)
  {
    var c := BounceSide(cx, cy, rad, rect);
    assert Overlap(cx, cy, rad, rect, c) <= Overlap(cx, cy, rad, rect, s);
    assert Overlap(cx, cy, rad, rect, s) <= Overlap(cx, cy, rad, rect, c);
    assert Rank(c) == Rank(s);
  }

  /**
   * The velocity after bouncing off the given face: the ball is sent away
   * from that face along its axis, keeping its speed along both axes.
   */
  function Reflect(v: Vec, s: Side): (r: Vec)
    ensures Abs(r.x) == Abs(v.x) && Abs(r.y) == Abs(v.y)
    ensures s == LeftSide ==> r.x <= 0.0 && r.y == v.y
    ensures s == RightSide ==> r.x >= 0.0 && r.y == v.y
    ensures s == TopSide ==> r.y <= 0.0 && r.x == v.x
    ensures s == BottomSide ==> r.y >= 0.0 && r.x == v.x
  {
    match s
    case LeftSide => Vec(-Abs(v.x), v.y)
    case RightSide => Vec(Abs(v.x), v.y)
    case TopSide => Vec(v.x, -Abs(v.y))
    case BottomSide => Vec(v.x, Abs(v.y))
  }

  /** A ball already moving away from the face is not deflected, so bouncing twice is bouncing once. */
  lemma ReflectIdempotent(v: Vec, s: Side)
    ensures Reflect(Reflect(v, s), s) == Reflect(v, s)
    ensures ((s == LeftSide && v.x <= 0.0) || (s == RightSide && v.x >= 0.0)
             || (s == TopSide && v.y <= 0.0) || (s == BottomSide && v.y >= 0.0)) ==> Reflect(v, s) == v
  {
  }

  /** Reflection keeps the magnitude of the velocity. */
  lemma ReflectKeepsSpeed(v: Vec, s: Side)
    ensures Square(Reflect(v, s).x) + Square(Reflect(v, s).y) == Square(v.x) + Square(v.y)
  {
    var r := Reflect(v, s);
    assert Square(r.x) == Square(v.x) by {
      assert r.x == v.x || r.x == -v.x;
    }
    assert Square(r.y) == Square(v.y) by {
      assert r.y == v.y || r.y == -v.y;
    }
  }
}

=== FILE: invariant.dfy ===
/**
 * The state invariant the rules maintain: a score in whole bricks, a level
 * from 1 up, a paddle between its start width and the EXPAND cap, balls of
 * radius 10 with positive speed that are served only while a launch is
 * awaited, and bricks of at most 3 hit-points.
 */
module Invariant {
  import opened Geometry
  import opened Entities
  import opened Level
  import opened Optional
  import opened Session
  import opened Flight
  import opened PowerUps
  import opened Tick
  import opened Commands

  predicate BallOk(b: Ball, waiting: bool) {
    b.r == 10.0 && b.speed > 0.0 && (b.sticky ==> waiting)
  }

  predicate BallsOk(bs: seq<Ball>, waiting: bool) {
    forall i :: 0 <= i < |bs| ==> BallOk(bs[i], waiting)
  }

  predicate BricksOk(bricks: seq<Brick>) {
    forall i :: 0 <= i < |bricks| ==> bricks[i].hp <= 3
  }

  /** Everything but the balls. */
  predicate CoreOk(g: Game) {
    && g.score >= 0 && g.score % 10 == 0 && g.level >= 1
    && StartPaddleWidth <= g.paddle.w <= MaxPaddleWidth && g.paddle.h == PaddleHeight
    && BricksOk(g.bricks)
  }

  predicate Valid(g: Game) {
    CoreOk(g) && BallsOk(g.balls, g.waitingToLaunch)
  }

  lemma LayoutOk(width: int, lvl: int, bricks: seq<Brick>)
    requires bricks == Layout(width, lvl)
    ensures BricksOk(bricks)
  {
    LayoutBricks(width, lvl);
  }

  /** A restart, and so a new game, satisfies the invariant. */
  lemma ResetAllValid(g: Game)
    ensures Valid(ResetAll(g))
  {
    var r := ResetAll(g);
    RestartStateValid(r, g.width, g.height, 1);
  }

  /** A fresh layout with the start paddle and a served ball satisfies the invariant. */
  lemma RestartStateValid(r: Game, width: int, height: int, lvl: int)
    requires r.score == 0 && r.level == lvl && lvl >= 1 && r.bricks == Layout(width, lvl)
    requires r.paddle == StartPaddle(width, height) && r.balls == [BallOnPaddle(r.paddle)] && r.waitingToLaunch
    ensures Valid(r)
  {
    LayoutOk(width, lvl, r.bricks);
  }

  lemma NewGameValid(width: int, height: int, stored: Option<int>)
    ensures Valid(NewGame(width, height, stored))
  {
    var blank := Game(width, height, StartPaddle(width, height), [], [], [],
                      false, false, 0, StartLives, 1, stored.GetOr(0), false, true);
    ResetAllValid(blank);
  }

  lemma ApplyPowerUpValid(g: Game, t: PowerUpType, env: Env)
    requires Valid(g)
    ensures Valid(ApplyPowerUp(g, t, env))
  {
    var r := ApplyPowerUp(g, t, env);
    if t == Multi {
      forall k | |g.balls| <= k < |r.balls|
        ensures BallOk(r.balls[k], r.waitingToLaunch)
      {
        ClonesAreReleasedCopies(g.balls, env, k - |g.balls|);
        assert r.balls[k] == Clones(g.balls, env)[k - |g.balls|];
      }
      assert forall k :: 0 <= k < |g.balls| ==> r.balls[k] == g.balls[k];
    }
  }

  lemma {:induction false} PowerUpPassValid(g: Game, pending: seq<PowerUp>, kept: seq<PowerUp>, dt: real, env: Env)
    requires Valid(g)
    ensures Valid(PowerUpPass(g, pending, kept, dt, env))
    decreases |pending|
  {
    if pending != [] {
      var p := Fall(pending[0], dt);
      if RectsIntersect(PowerUpRect(p), PaddleRect(g.paddle)) {
        var h := ApplyPowerUp(g, p.kind, env);
        ApplyPowerUpValid(g, p.kind, env);
        PowerUpPassValid(h, pending[1..], kept, dt, env);
        assert PowerUpPass(g, pending, kept, dt, env) == PowerUpPass(h, pending[1..], kept, dt, env);
      } else if p.y > g.height as real + FallLimit {
        PowerUpPassValid(g, pending[1..], kept, dt, env);
      } else {
        PowerUpPassValid(g, pending[1..], kept + [p], dt, env);
      }
    }
  }

  lemma StrikeValid(g: Game, b: Ball, k: nat, env: Env)
    requires CoreOk(g) && BallOk(b, g.waitingToLaunch)
    ensures var s := Strike(g, b, k, env); CoreOk(s.0) && BallOk(s.1, s.0.waitingToLaunch)
  {
    StrikeAccounting(g, b, k, env);
  }

  lemma LoseBallValid(g: Game, saved: bool)
    requires CoreOk(g) && g.balls == []
    ensures Valid(LoseBall(g, saved))
  {
  }

  /** The ball pass keeps the invariant, with the list split into handled and pending balls. */
  lemma {:induction false} BallPassValid(g: Game, done: seq<Ball>, pending: seq<Ball>, k: nat, dt: real, env: Env)
    requires CoreOk(g) && BallsOk(done, g.waitingToLaunch) && BallsOk(pending, g.waitingToLaunch)
    ensures Valid(BallPass(g, done, pending, k, dt, env))
    decreases |pending|, 1
  {
    if pending != [] {
      var b := pending[0];
      assert BallsOk(pending[1..], g.waitingToLaunch);
      if b.sticky {
        BallPassValid(g, done + [b], pending[1..], k + 1, dt, env);
      } else {
        var m := Walls(Advance(b, dt), g.width);
        if Lost(m, g.height) {
          if done == [] && |pending| == 1 {
            LoseBallValid(g.(balls := []), env.saved);
          } else {
            BallPassValid(g, done, pending[1..], k + 1, dt, env);
          }
        } else {
          StruckValid(g, done, pending, k, dt, env);
        }
      }
    }
  }

  /** The invariant induction for a first ball that flies on and strikes. */
  lemma {:induction false} StruckValid(g: Game, done: seq<Ball>, pending: seq<Ball>, k: nat, dt: real, env: Env)
    requires CoreOk(g) && BallsOk(done, g.waitingToLaunch) && BallsOk(pending, g.waitingToLaunch)
    requires pending != [] && !pending[0].sticky && !Lost(Walls(Advance(pending[0], dt), g.width), g.height)
    ensures Valid(BallPass(g, done, pending, k, dt, env))
    decreases |pending|, 0
  {
    var m := Walls(Advance(pending[0], dt), g.width);
    var s := Strike(g, m, k, env);
    assert BallsOk(pending[1..], g.waitingToLaunch);
    StrikeValid(g, m, k, env);
    assert BallsOk(done + [s.1], s.0.waitingToLaunch) by {
      assert s.0.waitingToLaunch == g.waitingToLaunch;
    }
    BallPassValid(s.0, done + [s.1], pending[1..], k + 1, dt, env);
    assert BallPass(g, done, pending, k, dt, env) == BallPass(s.0, done + [s.1], pending[1..], k + 1, dt, env);
  }

  lemma ScaleAllOk(bs: seq<Ball>, s: real, waiting: bool)
    requires BallsOk(bs, waiting) && s > 0.0
    ensures BallsOk(ScaleAll(bs, s), waiting)
  {
    forall i | 0 <= i < |bs|
      ensures BallOk(ScaleAll(bs, s)[i], waiting)
    {
      assert BallOk(bs[i], waiting);
    }
  }

  /** Same score and paddle, no lower level and sound bricks keep the invariant's core. */
  lemma CoreOkCarried(g: Game, r: Game)
    requires CoreOk(g) && BricksOk(r.bricks)
    requires r.score == g.score && r.paddle == g.paddle && r.level >= g.level
    ensures CoreOk(r)
  {
  }

  lemma NextLevelCoreOk(g: Game)
    requires CoreOk(g) && !AnyAlive(g.bricks)
    ensures CoreOk(ClearLevel(g))
  {
    NextLevelBricksOk(g);
    CoreOkCarried(g, ClearLevel(g));
  }

  /** The next level's bricks have at most 3 hit-points. */
  lemma NextLevelBricksOk(g: Game)
    requires !AnyAlive(g.bricks)
    ensures BricksOk(ClearLevel(g).bricks)
  {
    LayoutOk(g.width, g.level + 1, ClearLevel(g).bricks);
  }

  lemma ClearLevelCoreOk(g: Game)
    requires CoreOk(g)
    ensures CoreOk(ClearLevel(g))
  {
    if !AnyAlive(g.bricks) {
      NextLevelCoreOk(g);
    }
  }

  lemma NextLevelServes(g: Game)
    requires !AnyAlive(g.bricks) && g.balls == []
    ensures BallsOk(ClearLevel(g).balls, ClearLevel(g).waitingToLaunch)
  {
  }

  lemma NextLevelSpeedsUp(g: Game)
    requires BallsOk(g.balls, g.waitingToLaunch) && !AnyAlive(g.bricks) && g.balls != []
    ensures BallsOk(ClearLevel(g).balls, ClearLevel(g).waitingToLaunch)
  {
    ScaleAllOk(g.balls, SpeedUp, g.waitingToLaunch);
  }

  lemma ClearLevelBallsOk(g: Game)
    requires BallsOk(g.balls, g.waitingToLaunch)
    ensures BallsOk(ClearLevel(g).balls, ClearLevel(g).waitingToLaunch)
  {
    if !AnyAlive(g.bricks) {
      if g.balls == [] {
        NextLevelServes(g);
      } else {
        NextLevelSpeedsUp(g);
      }
    }
  }

  lemma ClearLevelValid(g: Game)
    requires Valid(g)
    ensures Valid(ClearLevel(g))
  {
    ClearLevelCoreOk(g);
    ClearLevelBallsOk(g);
  }

  /** A frame keeps the invariant. */
  lemma UpdateValid(g: Game, dt: real, env: Env)
    requires Valid(g)
    ensures Valid(Update(g, dt, env))
  {
    if !g.paused {
      var steered := PinSticky(MovePaddle(g, dt));
      assert Valid(steered);
      var caught := PowerUpPass(steered, steered.powerUps, [], dt, env);
      PowerUpPassValid(steered, steered.powerUps, [], dt, env);
      BallPassValid(caught, [], caught.balls, 0, dt, env);
      ClearLevelValid(BallPass(caught, [], caught.balls, 0, dt, env));
    }
  }

  /** A change that leaves the score, level, paddle, bricks and balls alone keeps the invariant. */
  lemma ValidCarried(g: Game, r: Game)
    requires Valid(g)
    requires r.score == g.score && r.level == g.level && r.paddle == g.paddle && r.bricks == g.bricks
    requires r.balls == g.balls && r.waitingToLaunch == g.waitingToLaunch
    ensures Valid(r)
  {
  }

  /** Launched balls keep radius and speed and are no longer served. */
  lemma LaunchAllOk(bs: seq<Ball>, aim: nat -> Dir, waiting: bool)
    requires BallsOk(bs, waiting)
    ensures BallsOk(LaunchAll(bs, aim), false)
  {
    forall i | 0 <= i < |bs|
      ensures BallOk(LaunchAll(bs, aim)[i], false)
    {
      assert BallOk(bs[i], waiting);
    }
  }

  /** Space keeps the invariant. */
  lemma SpaceValid(g: Game, aim: nat -> Dir, saved: bool)
    requires Valid(g)
    ensures Valid(KeyPressed(g, SpaceKey, aim, saved))
  {
    var r := KeyPressed(g, SpaceKey, aim, saved);
    if g.waitingToLaunch {
      LaunchAllOk(g.balls, aim, g.waitingToLaunch);
      assert r.balls == LaunchAll(g.balls, aim);
      CoreOkCarried(g, r);
    } else {
      ValidCarried(g, r);
    }
  }

  /** Every key press keeps the invariant. */
  lemma KeyPressedValid(g: Game, k: Key, aim: nat -> Dir, saved: bool)
    requires Valid(g)
    ensures Valid(KeyPressed(g, k, aim, saved))
  {
    match k
    case SpaceKey => SpaceValid(g, aim, saved);
    case RestartKey => ResetAllValid(SaveHighScore(g, saved));
    case _ => ValidCarried(g, KeyPressed(g, k, aim, saved));
  }

  lemma KeyReleasedValid(g: Game, k: Key)
    requires Valid(g)
    ensures Valid(KeyReleased(g, k))
  {
  }
}

=== FILE: level.dfy ===
/**
 * The level generator: a 6-row by 10-column grid of bricks with holes
 * punched by two rules keyed on the level number.  The layout is a pure
 * function of the field width and the level number.
 */
module Level {
  import opened Entities

  // The grid has 6 rows and 10 columns; the proofs use these literals directly.
  const GridSize: int := 60
  const Padding: real := 60.0
  const TopOffset: real := 60.0
  const BrickHeight: real := 28.0
  const RowGap: real := 6.0

  datatype Cell = Cell(row: int, col: int)

  /** Row-major position of a cell in the grid. */
  function Index(c: Cell): int { c.row * 10 + c.col }

  predicate InGrid(c: Cell) {
    0 <= c.row < 6 && 0 <= c.col < 10
  }

  /**
   * The two hole rules: on even levels every seventh anti-diagonal, on
   * levels divisible by three every fifth column of the even rows.  Only a
   * zero remainder is tested, so the sign convention of `%` does not matter.
   */
  predicate IsHole(lvl: int, r: int, c: int) {
    (lvl % 2 == 0 && (r + c) % 7 == 0) || (lvl % 3 == 0 && c % 5 == 0 && r % 2 == 0)
  }

  /** Hit-points of the bricks of a row: two rows per tier. */
  function RowHp(r: int): int { 1 + r / 2 }

  /**
   * Grid cells, none before row-major position `start`, in strictly
   * increasing row-major order.
   */
  predicate Ascending(cs: seq<Cell>, start: int)
    decreases |cs|
  {
    cs == [] || (InGrid(cs[0]) && start <= Index(cs[0]) && Ascending(cs[1..], Index(cs[0]) + 1))
  }

  /** Number of grid positions at or after row `r`, column `c`. */
  function Remaining(r: nat, c: nat): int {
    if r >= 6 then 0 else (6 - r) * 10 - c
  }

  /**
   * The cells that receive a brick, scanning row-major from row `r`, column
   * `c`: grid cells in increasing order, at most one per remaining position.
   */
  function CellsFrom(lvl: int, r: nat, c: nat): (cs: seq<Cell>)
    requires c <= 10
    ensures Ascending(cs, r * 10 + c)
    ensures |cs| <= Remaining(r, c)
    decreases 6 - r, 10 - c
  {
    if r >= 6 then []
    else if c >= 10 then CellsFrom(lvl, r + 1, 0)
    else
      var rest := CellsFrom(lvl, r, c + 1);
      if IsHole(lvl, r, c) then rest
      else
        assert ([Cell(r, c)] + rest)[1..] == rest;
        [Cell(r, c)] + rest
  }

  /** Ascending cells are distinct grid cells at or after `start`. */
  lemma {:induction false} AscendingDistinct(cs: seq<Cell>, start: int)
    requires Ascending(cs, start)
    ensures forall i :: 0 <= i < |cs| ==> InGrid(cs[i]) && start <= Index(cs[i])
    ensures forall i, j :: 0 <= i < j < |cs| ==> Index(cs[i]) < Index(cs[j])
    decreases |cs|
  {
    if cs != [] {
      var tail := cs[1..];
      AscendingDistinct(tail, Index(cs[0]) + 1);
      assert forall i :: 0 < i < |cs| ==> cs[i] == tail[i - 1];
    }
  }

  function Cells(lvl: int): seq<Cell> { CellsFrom(lvl, 0, 0) }

  function BrickWidth(width: int): real {
    (width as real - Padding * 2.0) / 10.0
  }

  /** The brick occupying a cell: 2 px inset on each side, rows 34 px apart. */
  function BrickAt(width: int, c: Cell): Brick {
    var bw := BrickWidth(width);
    Brick(Padding + c.col as real * bw + 2.0, TopOffset + c.row as real * (BrickHeight + RowGap),
          bw - 4.0, BrickHeight, RowHp(c.row))
  }

  /** The bricks of the given cells, in order. */
  function Place(width: int, cs: seq<Cell>): seq<Brick> {
    if cs == [] then [] else [BrickAt(width, cs[0])] + Place(width, cs[1..])
  }

  /**
   * The bricks of a level from row `r`, column `c` on, in the order the
   * generator's nested loops add them.
   */
  function LayoutFrom(width: int, lvl: int, r: nat, c: nat): seq<Brick>
    decreases 6 - r, 10 - c
  {
    if r >= 6 then []
    else if c >= 10 then LayoutFrom(width, lvl, r + 1, 0)
    else (if IsHole(lvl, r, c) then [] else [BrickAt(width, Cell(r, c))]) + LayoutFrom(width, lvl, r, c + 1)
  }

  function Layout(width: int, lvl: int): seq<Brick> {
    LayoutFrom(width, lvl, 0, 0)
  }

  /** Whether a cell comes at or after row `r`, column `c` in row-major order. */
  predicate NotBefore(cell: Cell, r: int, c: int) {
    cell.row > r || (cell.row == r && cell.col >= c)
  }

  /** A cell receives a brick exactly when it lies in the scanned part of the grid and is not a hole. */
  lemma {:induction false} CellsFromMembership(lvl: int, r: nat, c: nat, cell: Cell)
    requires c <= 10
    ensures cell in CellsFrom(lvl, r, c) <==> InGrid(cell) && NotBefore(cell, r, c) && !IsHole(lvl, cell.row, cell.col)
    decreases 6 - r, 10 - c
  {
    if r >= 6 {
      assert CellsFrom(lvl, r, c) == [];
    } else if c >= 10 {
      CellsFromMembership(lvl, r + 1, 0, cell);
      assert CellsFrom(lvl, r, c) == CellsFrom(lvl, r + 1, 0);
    } else {
      CellsFromMembership(lvl, r, c + 1, cell);
      var rest := CellsFrom(lvl, r, c + 1);
      if IsHole(lvl, r, c) {
        assert CellsFrom(lvl, r, c) == rest;
        assert cell == Cell(r, c) ==> IsHole(lvl, cell.row, cell.col);
      } else {
        assert CellsFrom(lvl, r, c) == [Cell(r, c)] + rest;
        assert cell in CellsFrom(lvl, r, c) <==> cell == Cell(r, c) || cell in rest;
        if cell == Cell(r, c) {
          assert InGrid(cell) && NotBefore(cell, r, c) && !IsHole(lvl, cell.row, cell.col);
        } else {
          assert NotBefore(cell, r, c) <==> NotBefore(cell, r, c + 1);
        }
      }
    }
  }

  lemma NoHoles(lvl: int, r: int, c: int)
    requires lvl % 2 != 0 && lvl % 3 != 0
    ensures !IsHole(lvl, r, c)
  {
  }

  /** On a level with neither hole rule active every position of the scanned part holds a brick. */
  lemma {:induction false} CellsFromFull(lvl: int, r: nat, c: nat)
    requires c <= 10
    requires lvl % 2 != 0 && lvl % 3 != 0
    ensures |CellsFrom(lvl, r, c)| == Remaining(r, c)
    decreases 6 - r, 10 - c
  {
    if r < 6 {
      if c >= 10 {
        CellsFromFull(lvl, r + 1, 0);
        assert CellsFrom(lvl, r, c) == CellsFrom(lvl, r + 1, 0);
      } else {
        CellsFromFull(lvl, r, c + 1);
        NoHoles(lvl, r, c);
        assert CellsFrom(lvl, r, c) == [Cell(r, c)] + CellsFrom(lvl, r, c + 1);
      }
    } else {
      assert CellsFrom(lvl, r, c) == [];
    }
  }

  /** A level has at most 60 bricks, one per kept cell. */
  lemma LayoutSize(width: int, lvl: int)
    ensures |Layout(width, lvl)| == |Cells(lvl)| <= GridSize
  {
    LayoutFromPlace(width, lvl, 0, 0);
    PlaceLength(width, Cells(lvl));
  }

  /** A level that is neither even nor a multiple of three has all 60 bricks. */
  lemma LayoutFull(width: int, lvl: int)
    requires lvl % 2 != 0 && lvl % 3 != 0
    ensures |Layout(width, lvl)| == GridSize
  {
    CellsFromFull(lvl, 0, 0);
    assert |Cells(lvl)| == 60;
    LayoutSize(width, lvl);
  }

  /**
   * Every brick sits on a grid cell that is not a hole, at most one brick
   * per cell, with hit-points 1 + row/2, so 1 to 3.
   */
  lemma LayoutBricks(width: int, lvl: int)
    ensures |Layout(width, lvl)| == |Cells(lvl)|
    ensures forall i :: 0 <= i < |Cells(lvl)| ==>
              && InGrid(Cells(lvl)[i]) && !IsHole(lvl, Cells(lvl)[i].row, Cells(lvl)[i].col)
              && Layout(width, lvl)[i] == BrickAt(width, Cells(lvl)[i])
              && Layout(width, lvl)[i].hp == RowHp(Cells(lvl)[i].row)
              && 1 <= Layout(width, lvl)[i].hp <= 3
    ensures forall i, j :: 0 <= i < j < |Cells(lvl)| ==> Cells(lvl)[i] != Cells(lvl)[j]
  {
    var cs := Cells(lvl);
    AscendingDistinct(cs, 0);
    LayoutFromPlace(width, lvl, 0, 0);
    PlaceElements(width, cs);
    forall i | 0 <= i < |cs|
      ensures !IsHole(lvl, cs[i].row, cs[i].col)
    {
      CellsFromMembership(lvl, 0, 0, cs[i]);
    }
  }

  /** Every grid cell that is not a hole receives a brick. */
  lemma LayoutComplete(lvl: int, cell: Cell)
    requires InGrid(cell) && !IsHole(lvl, cell.row, cell.col)
    ensures cell in Cells(lvl)
  {
    assert NotBefore(cell, 0, 0);
    CellsFromMembership(lvl, 0, 0, cell);
  }

  /** Every brick of every level starts alive. */
  lemma LayoutAllAlive(width: int, lvl: int)
    ensures forall i :: 0 <= i < |Layout(width, lvl)| ==> Alive(Layout(width, lvl)[i])
  {
    LayoutBricks(width, lvl);
  }

  lemma ConcatAssoc<T>(a: seq<T>, b: seq<T>, c: seq<T>)
    ensures (a + b) + c == a + (b + c)
  {
  }

  lemma {:induction false} PlaceLength(width: int, cs: seq<Cell>)
    ensures |Place(width, cs)| == |cs|
  {
    if cs != [] {
      PlaceLength(width, cs[1..]);
    }
  }

  lemma {:induction false} PlaceElements(width: int, cs: seq<Cell>)
    ensures |Place(width, cs)| == |cs|
    ensures forall i :: 0 <= i < |cs| ==> Place(width, cs)[i] == BrickAt(width, cs[i])
  {
    if cs != [] {
      PlaceElements(width, cs[1..]);
    }
  }

  /** The bricks the loops produce are those of the scanned cells. */
  lemma {:induction false} LayoutFromPlace(width: int, lvl: int, r: nat, c: nat)
    requires c <= 10
    ensures LayoutFrom(width, lvl, r, c) == Place(width, CellsFrom(lvl, r, c))
    decreases 6 - r, 10 - c
  {
    if r >= 6 {
      assert CellsFrom(lvl, r, c) == [];
    } else if c >= 10 {
      LayoutFromPlace(width, lvl, r + 1, 0);
      assert CellsFrom(lvl, r, c) == CellsFrom(lvl, r + 1, 0);
    } else {
      LayoutFromPlace(width, lvl, r, c + 1);
      var rest := CellsFrom(lvl, r, c + 1);
      if IsHole(lvl, r, c) {
        assert CellsFrom(lvl, r, c) == rest;
      } else {
        var cs := [Cell(r, c)] + rest;
        assert CellsFrom(lvl, r, c) == cs;
        assert cs[0] == Cell(r, c) && cs[1..] == rest;
        assert Place(width, cs) == [BrickAt(width, Cell(r, c))] + Place(width, rest);
      }
    }
  }

  /**
   * One step of the scan: with `bricks` built so far, the cell's brick,
   * unless it is a hole, is the next one of the layout.
   */
  lemma ScanStep(width: int, lvl: int, r: nat, c: nat, bricks: seq<Brick>, target: seq<Brick>)
    requires r < 6 && c < 10
    requires bricks + LayoutFrom(width, lvl, r, c) == target
    ensures (if IsHole(lvl, r, c) then bricks else bricks + [BrickAt(width, Cell(r, c))])
            + LayoutFrom(width, lvl, r, c + 1) == target
  {
    var rest := LayoutFrom(width, lvl, r, c + 1);
    if IsHole(lvl, r, c) {
      assert LayoutFrom(width, lvl, r, c) == [] + rest;
    } else {
      ConcatAssoc(bricks, [BrickAt(width, Cell(r, c))], rest);
    }
  }

  /** The end of a row: the scan carries on at the start of the next. */
  lemma LayoutFromRowEnd(width: int, lvl: int, r: nat)
    requires r < 6
    ensures LayoutFrom(width, lvl, r, 10) == LayoutFrom(width, lvl, r + 1, 0)
  {
  }

  /** Past the last row nothing is left to scan. */
  lemma LayoutFromEnd(width: int, lvl: int, bricks: seq<Brick>)
    ensures bricks + LayoutFrom(width, lvl, 6, 0) == bricks
  {
    assert LayoutFrom(width, lvl, 6, 0) == [];
  }

  /** The generator's nested row/column loops, building the same layout. */
  method InitLevel(width: int, lvl: int) returns (bricks: seq<Brick>)
    ensures bricks == Layout(width, lvl)
  {
    ghost var target := Layout(width, lvl);
    bricks := [];
    var r := 0;
    while r < 6
      invariant 0 <= r <= 6
      invariant bricks + LayoutFrom(width, lvl, r, 0) == target
    {
      var c := 0;
      while c < 10
        invariant 0 <= c <= 10
        invariant bricks + LayoutFrom(width, lvl, r, c) == target
      {
        ScanStep(width, lvl, r, c, bricks, target);
        if !IsHole(lvl, r, c) {
          bricks := bricks + [BrickAt(width, Cell(r, c))];
        }
        c := c + 1;
      }
      LayoutFromRowEnd(width, lvl, r);
      r := r + 1;
    }
    LayoutFromEnd(width, lvl, bricks);
  }
}

=== FILE: optional.dfy ===
/** An optional value: used for the random power-up drop and the stored high score. */
module Optional {

  datatype Option<+T> = None | Some(value: T) {

    /** The wrapped value, or `default` when there is none. */
    function GetOr(default: T): T {
      match this
      case Some(v) => v
      case None => default
    }
  }
}

=== FILE: powerups.dfy ===
/**
 * The four pickups and the falling power-ups: what each kind does when the
 * paddle catches it, and one frame of the falling pickups.
 */
module PowerUps {
  import opened Geometry
  import opened Entities
  import opened Session
  import opened Flight

  const ExpandStep: real := 40.0
  const MaxPaddleWidth: real := 220.0
  const SlowFactor: real := 0.85
  const SpreadDegrees: int := 12
  const FallLimit: real := 30.0

  /** A ball with its nominal speed and its velocity multiplied by `s`. */
  function Scale(b: Ball, s: real): (r: Ball)
    ensures r == b.(speed := r.speed, vx := r.vx, vy := r.vy)
    ensures r.speed == s * b.speed && r.vx == s * b.vx && r.vy == s * b.vy
  {
    b.(speed := b.speed * s, vx := b.vx * s, vy := b.vy * s)
  }

  /** Every ball scaled by `s`, in the same order. */
  function ScaleAll(bs: seq<Ball>, s: real): (r: seq<Ball>)
    ensures |r| == |bs|
    ensures forall i :: 0 <= i < |bs| ==> r[i] == Scale(bs[i], s)
  {
    seq(|bs|, i requires 0 <= i < |bs| => Scale(bs[i], s))
  }

  /** Scaling by `s` and then by `t` is scaling by their product. */
  lemma ScaleCompose(b: Ball, s: real, t: real)
    ensures Scale(Scale(b, s), t) == Scale(b, s * t)
  {
  }

  /** A released copy of `b` whose velocity is turned by `deg` degrees. */
  function Turned(b: Ball, deg: int, env: Env): (r: Ball)
    ensures r == CloneBall(b).(vx := r.vx, vy := r.vy)
    ensures Vec(r.vx, r.vy) == env.rotate(Vec(b.vx, b.vy), deg)
  {
    var v := env.rotate(Vec(b.vx, b.vy), deg);
    CloneBall(b).(vx := v.x, vy := v.y)
  }

  /**
   * The multi-ball clones: for each ball, in order, one copy turned 12
   * degrees one way and one turned 12 degrees the other way.
   */
  function Clones(bs: seq<Ball>, env: Env): (r: seq<Ball>)
    ensures |r| == 2 * |bs|
    ensures forall i :: 0 <= i < |bs| ==>
              r[2 * i] == Turned(bs[i], SpreadDegrees, env) && r[2 * i + 1] == Turned(bs[i], -SpreadDegrees, env)
    decreases |bs|
  {
    if bs == [] then []
    else
      var rest := Clones(bs[1..], env);
      var r := [Turned(bs[0], SpreadDegrees, env), Turned(bs[0], -SpreadDegrees, env)] + rest;
      forall i | 1 <= i < |bs|
        ensures r[2 * i] == Turned(bs[i], SpreadDegrees, env) && r[2 * i + 1] == Turned(bs[i], -SpreadDegrees, env)
      {
        assert bs[i] == bs[1..][i - 1];
        assert r[2 * i] == rest[2 * (i - 1)];
        assert r[2 * i + 1] == rest[2 * (i - 1) + 1];
      }
      r
  }

  /** Every clone is a released ball at the position, radius and nominal speed of its source. */
  lemma ClonesAreReleasedCopies(bs: seq<Ball>, env: Env, k: nat)
    requires k < |Clones(bs, env)|
    ensures var c := Clones(bs, env)[k]; var src := bs[k / 2];
            && !c.sticky && c.x == src.x && c.y == src.y && c.r == src.r && c.speed == src.speed
  {
    var i := k / 2;
    var cs := Clones(bs, env);
    assert i < |bs|;
    if k == 2 * i {
      assert cs[k] == Turned(bs[i], SpreadDegrees, env);
    } else {
      assert k == 2 * i + 1;
      assert cs[k] == Turned(bs[i], -SpreadDegrees, env);
    }
  }

  /**
   * What a caught pickup does: EXPAND widens the paddle by 40 px up to 220,
   * SLOW takes 15% off every ball, MULTI adds two turned copies of every
   * ball, LIFE grants a life.
   */
  function ApplyPowerUp(g: Game, t: PowerUpType, env: Env): (r: Game)
    ensures t == Expand ==> r == g.(paddle := g.paddle.(w := r.paddle.w))
    ensures t == Expand ==> r.paddle.w <= MaxPaddleWidth && r.paddle.w <= g.paddle.w + ExpandStep
    ensures t == Expand ==> r.paddle.w == g.paddle.w + ExpandStep || r.paddle.w == MaxPaddleWidth
    ensures t == Slow ==> r == g.(balls := r.balls) && |r.balls| == |g.balls|
    ensures t == Slow ==> forall i :: 0 <= i < |g.balls| ==> r.balls[i] == Scale(g.balls[i], SlowFactor)
    ensures t == Multi ==> r == g.(balls := r.balls)
    ensures t == Multi ==> |r.balls| == 3 * |g.balls| && r.balls[..|g.balls|] == g.balls
    ensures t == Multi ==> r.balls[|g.balls|..] == Clones(g.balls, env)
    ensures t == Life ==> r == g.(lives := g.lives + 1)
  {
    match t
    case Expand => g.(paddle := g.paddle.(w := Min(g.paddle.w + ExpandStep, MaxPaddleWidth)))
    case Slow => g.(balls := ScaleAll(g.balls, SlowFactor))
    case Multi => g.(balls := g.balls + Clones(g.balls, env))
    case Life => g.(lives := g.lives + 1)
  }

  /** A paddle of at least 180 px reaches the cap in one catch; narrower paddles grow by exactly 40. */
  lemma ExpandReachesCap(g: Game, env: Env)
    ensures var w := ApplyPowerUp(g, Expand, env).paddle.w;
            (g.paddle.w + ExpandStep >= MaxPaddleWidth ==> w == MaxPaddleWidth)
            && (g.paddle.w + ExpandStep < MaxPaddleWidth ==> w == g.paddle.w + ExpandStep)
  {
  }

  /** One frame of fall for a pickup. */
  function Fall(p: PowerUp, dt: real): (r: PowerUp)
    ensures r == p.(y := r.y) && r.y - p.y == p.vy * dt
  {
    p.(y := p.y + p.vy * dt)
  }

  /** Falling for `s` and then for `t` seconds is falling for `s + t`; no time, no fall. */
  lemma FallCompose(p: PowerUp, s: real, t: real)
    ensures Fall(Fall(p, s), t) == Fall(p, s + t)
    ensures Fall(p, 0.0) == p
  {
    assert p.vy * s + p.vy * t == p.vy * (s + t);
  }

  /**
   * The pickups in flight, in order: each falls; one touching the paddle is
   * applied and removed, one more than 30 px below the bottom edge is
   * removed, the rest are kept.  A caught EXPAND already widens the paddle
   * for the pickups after it.
   */
  function PowerUpPass(g: Game, pending: seq<PowerUp>, kept: seq<PowerUp>, dt: real, env: Env): (r: Game)
    ensures |kept| <= |r.powerUps| <= |kept| + |pending|
    ensures r.powerUps[..|kept|] == kept
    ensures forall i :: |kept| <= i < |r.powerUps| ==> r.powerUps[i].y <= g.height as real + FallLimit
    decreases |pending|
  {
    if pending == [] then g.(powerUps := kept)
    else
      var p := Fall(pending[0], dt);
      if RectsIntersect(PowerUpRect(p), PaddleRect(g.paddle)) then
        PowerUpPass(ApplyPowerUp(g, p.kind, env), pending[1..], kept, dt, env)
      else if p.y > g.height as real + FallLimit then
        PowerUpPass(g, pending[1..], kept, dt, env)
      else
        var r := PowerUpPass(g, pending[1..], kept + [p], dt, env);
        assert r.powerUps[..|kept|] == (r.powerUps[..|kept| + 1])[..|kept|];
        r
  }

  /**
   * What catching pickups may change: the balls, the pickups, the paddle's
   * width and, upwards only, the lives.  Score, bricks, level and the rest
   * are untouched.
   */
  predicate PickupFrame(g: Game, r: Game) {
    && r.score == g.score && r.bricks == g.bricks && r.level == g.level && r.lives >= g.lives
    && r.width == g.width && r.height == g.height && r.highScore == g.highScore
    && r.paused == g.paused && r.waitingToLaunch == g.waitingToLaunch
    && r.left == g.left && r.right == g.right
    && r.paddle.x == g.paddle.x && r.paddle.y == g.paddle.y && r.paddle.h == g.paddle.h
  }

  lemma ApplyPowerUpFrame(g: Game, t: PowerUpType, env: Env)
    ensures PickupFrame(g, ApplyPowerUp(g, t, env))
  {
    match t
    case Expand =>
    case Slow =>
    case Multi =>
    case Life =>
  }

  /** Catching pickups changes only what a pickup may change. */
  lemma {:induction false} PowerUpPassFrame(g: Game, pending: seq<PowerUp>, kept: seq<PowerUp>, dt: real, env: Env)
    ensures PickupFrame(g, PowerUpPass(g, pending, kept, dt, env))
    decreases |pending|
  {
    if pending != [] {
      var p := Fall(pending[0], dt);
      if RectsIntersect(PowerUpRect(p), PaddleRect(g.paddle)) {
        var h := ApplyPowerUp(g, p.kind, env);
        ApplyPowerUpFrame(g, p.kind, env);
        PowerUpPassFrame(h, pending[1..], kept, dt, env);
        assert PowerUpPass(g, pending, kept, dt, env) == PowerUpPass(h, pending[1..], kept, dt, env);
      } else if p.y > g.height as real + FallLimit {
        PowerUpPassFrame(g, pending[1..], kept, dt, env);
      } else {
        PowerUpPassFrame(g, pending[1..], kept + [p], dt, env);
      }
    }
  }

  // ----- which pickups a pass keeps -----

  /** `a` is `b` with some elements left out, the rest in order. */
  predicate SubseqOf<T(==)>(a: seq<T>, b: seq<T>)
    decreases |b|
  {
    if a == [] then true
    else if b == [] then false
    else (a[0] == b[0] && SubseqOf(a[1..], b[1..])) || SubseqOf(a, b[1..])
  }

  lemma SubseqCons<T>(p: T, a: seq<T>, b: seq<T>)
    requires SubseqOf(a, b)
    ensures SubseqOf([p] + a, [p] + b)
  {
    assert ([p] + a)[1..] == a && ([p] + b)[1..] == b;
  }

  lemma SubseqSkip<T>(p: T, a: seq<T>, b: seq<T>)
    requires SubseqOf(a, b)
    ensures SubseqOf(a, [p] + b)
  {
    assert ([p] + b)[1..] == b;
  }

  lemma {:induction false} SubseqTrans<T>(a: seq<T>, b: seq<T>, c: seq<T>)
    requires SubseqOf(a, b) && SubseqOf(b, c)
    ensures SubseqOf(a, c)
    decreases |c|
  {
    if a != [] {
      if SubseqOf(b, c[1..]) {
        SubseqTrans(a, b, c[1..]);
      } else if a[0] == b[0] && SubseqOf(a[1..], b[1..]) {
        SubseqTrans(a[1..], b[1..], c[1..]);
      } else {
        SubseqTrans(a, b[1..], c[1..]);
      }
    }
  }

  /** A subsequence is no longer, and one of the same length is the sequence itself. */
  lemma {:induction false} SubseqLength<T>(a: seq<T>, b: seq<T>)
    requires SubseqOf(a, b)
    ensures |a| <= |b|
    ensures |a| == |b| ==> a == b
    decreases |b|
  {
    if a != [] {
      if a[0] == b[0] && SubseqOf(a[1..], b[1..]) {
        SubseqLength(a[1..], b[1..]);
        if |a| == |b| {
          assert a == [a[0]] + a[1..] && b == [b[0]] + b[1..];
        }
      } else {
        SubseqLength(a, b[1..]);
      }
    }
  }

  /** Paddle `b` is paddle `a` widened to the right. */
  predicate Wider(a: Paddle, b: Paddle) {
    b.x == a.x && b.y == a.y && b.h == a.h && a.w <= b.w
  }

  /** A pickup touching a paddle touches it widened. */
  lemma TouchWider(q: Rect, a: Paddle, b: Paddle)
    requires Wider(a, b) && RectsIntersect(q, PaddleRect(a))
    ensures RectsIntersect(q, PaddleRect(b))
  {
  }

  /** A pickup that stays in flight: clear of the paddle and at most 30 px below the bottom edge. */
  predicate Stays(p: PowerUp, paddle: Paddle, height: int) {
    !RectsIntersect(PowerUpRect(p), PaddleRect(paddle)) && p.y <= height as real + FallLimit
  }

  /** The pickups of `ps`, after one frame of fall, that stay in flight beside a fixed paddle. */
  function Staying(ps: seq<PowerUp>, dt: real, paddle: Paddle, height: int): seq<PowerUp>
    decreases |ps|
  {
    if ps == [] then []
    else
      var p := Fall(ps[0], dt);
      (if Stays(p, paddle, height) then [p] else []) + Staying(ps[1..], dt, paddle, height)
  }

  /** The number of LIFE pickups of `ps` that touch a fixed paddle after one frame of fall. */
  function LifeCatches(ps: seq<PowerUp>, dt: real, paddle: Paddle): nat
    decreases |ps|
  {
    if ps == [] then 0
    else
      var p := Fall(ps[0], dt);
      (if p.kind == Life && RectsIntersect(PowerUpRect(p), PaddleRect(paddle)) then 1 else 0)
        + LifeCatches(ps[1..], dt, paddle)
  }

  /** Beside a wider paddle fewer pickups stay, in the same order. */
  lemma {:induction false} StayingWider(ps: seq<PowerUp>, dt: real, a: Paddle, b: Paddle, height: int)
    requires Wider(a, b)
    ensures SubseqOf(Staying(ps, dt, b, height), Staying(ps, dt, a, height))
    decreases |ps|
  {
    if ps != [] {
      var p := Fall(ps[0], dt);
      StayingWider(ps[1..], dt, a, b, height);
      var tb := Staying(ps[1..], dt, b, height);
      var ta := Staying(ps[1..], dt, a, height);
      assert Staying(ps, dt, a, height) == (if Stays(p, a, height) then [p] else []) + ta;
      assert Staying(ps, dt, b, height) == (if Stays(p, b, height) then [p] else []) + tb;
      if RectsIntersect(PowerUpRect(p), PaddleRect(a)) {
        TouchWider(PowerUpRect(p), a, b);
        assert Staying(ps, dt, a, height) == ta && Staying(ps, dt, b, height) == tb;
      } else if Stays(p, b, height) {
        SubseqCons(p, tb, ta);
      } else if Stays(p, a, height) {
        SubseqSkip(p, tb, ta);
        assert Staying(ps, dt, b, height) == tb;
      } else {
        assert Staying(ps, dt, a, height) == ta && Staying(ps, dt, b, height) == tb;
      }
    }
  }

  /** A wider paddle catches at least as many LIFE pickups. */
  lemma {:induction false} LifeCatchesWider(ps: seq<PowerUp>, dt: real, a: Paddle, b: Paddle)
    requires Wider(a, b)
    ensures LifeCatches(ps, dt, a) <= LifeCatches(ps, dt, b)
    decreases |ps|
  {
    if ps != [] {
      LifeCatchesWider(ps[1..], dt, a, b);
      var p := Fall(ps[0], dt);
      if RectsIntersect(PowerUpRect(p), PaddleRect(a)) {
        TouchWider(PowerUpRect(p), a, b);
      }
    }
  }

  /** Catching pickups only widens the paddle, up to the 220 px cap. */
  lemma {:induction false} PowerUpPassWidens(g: Game, pending: seq<PowerUp>, kept: seq<PowerUp>, dt: real, env: Env)
    requires g.paddle.w <= MaxPaddleWidth
    ensures var r := PowerUpPass(g, pending, kept, dt, env);
            Wider(g.paddle, r.paddle) && r.paddle.w <= MaxPaddleWidth
    decreases |pending|
  {
    if pending != [] {
      var p := Fall(pending[0], dt);
      if RectsIntersect(PowerUpRect(p), PaddleRect(g.paddle)) {
        var h := ApplyPowerUp(g, p.kind, env);
        PowerUpPassWidens(h, pending[1..], kept, dt, env);
      } else if p.y > g.height as real + FallLimit {
        PowerUpPassWidens(g, pending[1..], kept, dt, env);
      } else {
        PowerUpPassWidens(g, pending[1..], kept + [p], dt, env);
      }
    }
  }

  /** Pass step for a pickup that touches the paddle: it stays in neither bound. */
  lemma KeepsCaughtStep(ps: seq<PowerUp>, dt: real, added: seq<PowerUp>, a: Paddle, h: Paddle, b: Paddle, height: int)
    requires ps != [] && RectsIntersect(PowerUpRect(Fall(ps[0], dt)), PaddleRect(a))
    requires Wider(a, h) && Wider(h, b)
    requires SubseqOf(Staying(ps[1..], dt, b, height), added) && SubseqOf(added, Staying(ps[1..], dt, h, height))
    ensures SubseqOf(Staying(ps, dt, b, height), added) && SubseqOf(added, Staying(ps, dt, a, height))
  {
    var p := Fall(ps[0], dt);
    TouchWider(PowerUpRect(p), a, b);
    StayingWider(ps[1..], dt, a, h, height);
    SubseqTrans(added, Staying(ps[1..], dt, h, height), Staying(ps[1..], dt, a, height));
    assert Staying(ps, dt, a, height) == Staying(ps[1..], dt, a, height);
    assert Staying(ps, dt, b, height) == Staying(ps[1..], dt, b, height);
  }

  /** Pass step for a pickup that falls out of play: it stays in neither bound. */
  lemma KeepsDroppedStep(ps: seq<PowerUp>, dt: real, added: seq<PowerUp>, a: Paddle, b: Paddle, height: int)
    requires ps != [] && Fall(ps[0], dt).y > height as real + FallLimit
    requires SubseqOf(Staying(ps[1..], dt, b, height), added) && SubseqOf(added, Staying(ps[1..], dt, a, height))
    ensures SubseqOf(Staying(ps, dt, b, height), added) && SubseqOf(added, Staying(ps, dt, a, height))
  {
    assert Staying(ps, dt, a, height) == Staying(ps[1..], dt, a, height);
    assert Staying(ps, dt, b, height) == Staying(ps[1..], dt, b, height);
  }

  /** Pass step for a pickup kept in flight: it heads the upper bound and may head the lower. */
  lemma KeepsKeptStep(ps: seq<PowerUp>, dt: real, added: seq<PowerUp>, a: Paddle, b: Paddle, height: int)
    requires ps != [] && Stays(Fall(ps[0], dt), a, height)
    requires SubseqOf(Staying(ps[1..], dt, b, height), added) && SubseqOf(added, Staying(ps[1..], dt, a, height))
    ensures SubseqOf(Staying(ps, dt, b, height), [Fall(ps[0], dt)] + added)
    ensures SubseqOf([Fall(ps[0], dt)] + added, Staying(ps, dt, a, height))
  {
    var p := Fall(ps[0], dt);
    assert Staying(ps, dt, a, height) == [p] + Staying(ps[1..], dt, a, height);
    SubseqCons(p, added, Staying(ps[1..], dt, a, height));
    if Stays(p, b, height) {
      assert Staying(ps, dt, b, height) == [p] + Staying(ps[1..], dt, b, height);
      SubseqCons(p, Staying(ps[1..], dt, b, height), added);
    } else {
      assert Staying(ps, dt, b, height) == Staying(ps[1..], dt, b, height);
      SubseqSkip(p, Staying(ps[1..], dt, b, height), added);
    }
  }

  /**
   * The pickups a pass adds to `kept` are fallen pickups of `pending`, in
   * order: all that stay beside the paddle as it ends the pass, and only
   * ones that stay beside the paddle as it started.  The two agree unless
   * an EXPAND caught during the pass widens the paddle.
   */
  lemma {:induction false} PowerUpPassKeeps(g: Game, pending: seq<PowerUp>, kept: seq<PowerUp>, dt: real, env: Env)
    requires g.paddle.w <= MaxPaddleWidth
    ensures var r := PowerUpPass(g, pending, kept, dt, env);
            && SubseqOf(Staying(pending, dt, r.paddle, g.height), r.powerUps[|kept|..])
            && SubseqOf(r.powerUps[|kept|..], Staying(pending, dt, g.paddle, g.height))
    decreases |pending|, 1
  {
    if pending != [] {
      var p := Fall(pending[0], dt);
      if RectsIntersect(PowerUpRect(p), PaddleRect(g.paddle)) {
        KeepsCaught(g, pending, kept, dt, env);
      } else if p.y > g.height as real + FallLimit {
        var r := PowerUpPass(g, pending, kept, dt, env);
        assert r == PowerUpPass(g, pending[1..], kept, dt, env);
        PowerUpPassKeeps(g, pending[1..], kept, dt, env);
        KeepsDroppedStep(pending, dt, r.powerUps[|kept|..], g.paddle, r.paddle, g.height);
      } else {
        KeepsKept(g, pending, kept, dt, env);
      }
    }
  }

  lemma {:induction false} KeepsCaught(g: Game, pending: seq<PowerUp>, kept: seq<PowerUp>, dt: real, env: Env)
    requires g.paddle.w <= MaxPaddleWidth
    requires pending != [] && RectsIntersect(PowerUpRect(Fall(pending[0], dt)), PaddleRect(g.paddle))
    ensures var r := PowerUpPass(g, pending, kept, dt, env);
            && SubseqOf(Staying(pending, dt, r.paddle, g.height), r.powerUps[|kept|..])
            && SubseqOf(r.powerUps[|kept|..], Staying(pending, dt, g.paddle, g.height))
    decreases |pending|, 0
  {
    var h := ApplyPowerUp(g, Fall(pending[0], dt).kind, env);
    var r := PowerUpPass(h, pending[1..], kept, dt, env);
    assert r == PowerUpPass(g, pending, kept, dt, env);
    PowerUpPassKeeps(h, pending[1..], kept, dt, env);
    PowerUpPassWidens(h, pending[1..], kept, dt, env);
    KeepsCaughtStep(pending, dt, r.powerUps[|kept|..], g.paddle, h.paddle, r.paddle, g.height);
  }

  lemma {:induction false} KeepsKept(g: Game, pending: seq<PowerUp>, kept: seq<PowerUp>, dt: real, env: Env)
    requires g.paddle.w <= MaxPaddleWidth
    requires pending != [] && Stays(Fall(pending[0], dt), g.paddle, g.height)
    ensures var r := PowerUpPass(g, pending, kept, dt, env);
            && SubseqOf(Staying(pending, dt, r.paddle, g.height), r.powerUps[|kept|..])
            && SubseqOf(r.powerUps[|kept|..], Staying(pending, dt, g.paddle, g.height))
    decreases |pending|, 0
  {
    var p := Fall(pending[0], dt);
    var r := PowerUpPass(g, pending[1..], kept + [p], dt, env);
    assert r == PowerUpPass(g, pending, kept, dt, env);
    PowerUpPassKeeps(g, pending[1..], kept + [p], dt, env);
    var added := r.powerUps[|kept| + 1..];
    assert r.powerUps[|kept|] == (r.powerUps[..|kept| + 1])[|kept|] == p;
    assert r.powerUps[|kept|..] == [p] + added;
    KeepsKeptStep(pending, dt, added, g.paddle, r.paddle, g.height);
  }

  /**
   * Caught LIFE pickups are applied: the pass grants at least one life per
   * LIFE pickup touching the paddle as it started, and at most one per LIFE
   * pickup touching the paddle as it ends.
   */
  lemma {:induction false} PowerUpPassLives(g: Game, pending: seq<PowerUp>, kept: seq<PowerUp>, dt: real, env: Env)
    requires g.paddle.w <= MaxPaddleWidth
    ensures var r := PowerUpPass(g, pending, kept, dt, env);
            g.lives + LifeCatches(pending, dt, g.paddle) <= r.lives <= g.lives + LifeCatches(pending, dt, r.paddle)
    decreases |pending|, 1
  {
    var r := PowerUpPass(g, pending, kept, dt, env);
    if pending != [] {
      var p := Fall(pending[0], dt);
      var rest := pending[1..];
      if RectsIntersect(PowerUpRect(p), PaddleRect(g.paddle)) {
        LivesCaught(g, pending, kept, dt, env);
      } else if p.y > g.height as real + FallLimit {
        PowerUpPassLives(g, rest, kept, dt, env);
      } else {
        PowerUpPassLives(g, rest, kept + [p], dt, env);
      }
    }
  }

  lemma {:induction false} LivesCaught(g: Game, pending: seq<PowerUp>, kept: seq<PowerUp>, dt: real, env: Env)
    requires g.paddle.w <= MaxPaddleWidth
    requires pending != [] && RectsIntersect(PowerUpRect(Fall(pending[0], dt)), PaddleRect(g.paddle))
    ensures var r := PowerUpPass(g, pending, kept, dt, env);
            g.lives + LifeCatches(pending, dt, g.paddle) <= r.lives <= g.lives + LifeCatches(pending, dt, r.paddle)
    decreases |pending|, 0
  {
    var p := Fall(pending[0], dt);
    var h := ApplyPowerUp(g, p.kind, env);
    var r := PowerUpPass(h, pending[1..], kept, dt, env);
    assert r == PowerUpPass(g, pending, kept, dt, env);
    PowerUpPassLives(h, pending[1..], kept, dt, env);
    PowerUpPassWidens(h, pending[1..], kept, dt, env);
    TouchWider(PowerUpRect(p), g.paddle, r.paddle);
    LifeCatchesWider(pending[1..], dt, g.paddle, h.paddle);
  }

  /**
   * With the paddle at its 220 px cap the pass is exact: the kept pickups
   * are precisely the fallen ones that stay, and one life is granted per
   * LIFE pickup touching the paddle.
   */
  lemma PowerUpPassAtCap(g: Game, pending: seq<PowerUp>, dt: real, env: Env)
    requires g.paddle.w == MaxPaddleWidth
    ensures var r := PowerUpPass(g, pending, [], dt, env);
            && r.powerUps == Staying(pending, dt, g.paddle, g.height)
            && r.lives == g.lives + LifeCatches(pending, dt, g.paddle)
  {
    var r := PowerUpPass(g, pending, [], dt, env);
    PowerUpPassWidens(g, pending, [], dt, env);
    assert r.paddle == g.paddle;
    PowerUpPassKeeps(g, pending, [], dt, env);
    PowerUpPassLives(g, pending, [], dt, env);
    assert r.powerUps[0..] == r.powerUps;
    SubseqLength(Staying(pending, dt, g.paddle, g.height), r.powerUps);
    SubseqLength(r.powerUps, Staying(pending, dt, g.paddle, g.height));
  }

  // ----- what caught pickups do -----

  /** The kinds of the pickups of `ps` that touch a fixed paddle after one frame of fall, in order. */
  function CaughtKinds(ps: seq<PowerUp>, dt: real, paddle: Paddle): seq<PowerUpType>
    decreases |ps|
  {
    if ps == [] then []
    else
      var p := Fall(ps[0], dt);
      (if RectsIntersect(PowerUpRect(p), PaddleRect(paddle)) then [p.kind] else []) + CaughtKinds(ps[1..], dt, paddle)
  }

  /** The power-ups of `kinds` applied one after another. */
  function ApplyAll(g: Game, kinds: seq<PowerUpType>, env: Env): Game
    decreases |kinds|
  {
    if kinds == [] then g else ApplyAll(ApplyPowerUp(g, kinds[0], env), kinds[1..], env)
  }

  /** How many times `t` occurs in `kinds`. */
  function Occurrences(kinds: seq<PowerUpType>, t: PowerUpType): nat
    decreases |kinds|
  {
    if kinds == [] then 0 else (if kinds[0] == t then 1 else 0) + Occurrences(kinds[1..], t)
  }

  function Pow3(n: nat): nat {
    if n == 0 then 1 else 3 * Pow3(n - 1)
  }

  /**
   * Applying a run of power-ups triples the balls once per MULTI and adds a
   * life per LIFE.
   */
  lemma {:induction false} ApplyAllCounts(g: Game, kinds: seq<PowerUpType>, env: Env)
    ensures var r := ApplyAll(g, kinds, env);
            && |r.balls| == |g.balls| * Pow3(Occurrences(kinds, Multi))
            && r.lives == g.lives + Occurrences(kinds, Life)
    decreases |kinds|
  {
    if kinds != [] {
      var h := ApplyPowerUp(g, kinds[0], env);
      assert ApplyAll(g, kinds, env) == ApplyAll(h, kinds[1..], env);
      ApplyAllCounts(h, kinds[1..], env);
      var m := Occurrences(kinds[1..], Multi);
      if kinds[0] == Multi {
        assert Occurrences(kinds, Multi) == m + 1;
        TripleStep(|g.balls|, |h.balls|, m);
      } else {
        assert Occurrences(kinds, Multi) == m;
        assert |h.balls| == |g.balls|;
      }
    }
  }

  lemma TripleStep(n: nat, h: nat, m: nat)
    requires h == 3 * n
    ensures h * Pow3(m) == n * Pow3(m + 1)
  {
  }

  /**
   * With the paddle at its 220 px cap the pass is the power-ups of the
   * caught pickups applied in order, with the pickups that stay appended to
   * `kept`.
   */
  lemma {:induction false} PowerUpPassAtCapApplies(g: Game, pending: seq<PowerUp>, kept: seq<PowerUp>, dt: real, env: Env)
    requires g.paddle.w == MaxPaddleWidth
    ensures PowerUpPass(g, pending, kept, dt, env)
            == ApplyAll(g, CaughtKinds(pending, dt, g.paddle), env).(powerUps := kept + Staying(pending, dt, g.paddle, g.height))
    decreases |pending|, 1
  {
    if pending == [] {
      assert kept + [] == kept;
    } else {
      var p := Fall(pending[0], dt);
      if RectsIntersect(PowerUpRect(p), PaddleRect(g.paddle)) {
        AtCapCaught(g, pending, kept, dt, env);
      } else if p.y > g.height as real + FallLimit {
        PowerUpPassAtCapApplies(g, pending[1..], kept, dt, env);
        assert CaughtKinds(pending, dt, g.paddle) == CaughtKinds(pending[1..], dt, g.paddle);
        assert Staying(pending, dt, g.paddle, g.height) == Staying(pending[1..], dt, g.paddle, g.height);
      } else {
        PowerUpPassAtCapApplies(g, pending[1..], kept + [p], dt, env);
        assert CaughtKinds(pending, dt, g.paddle) == CaughtKinds(pending[1..], dt, g.paddle);
        assert Staying(pending, dt, g.paddle, g.height) == [p] + Staying(pending[1..], dt, g.paddle, g.height);
        assert kept + [p] + Staying(pending[1..], dt, g.paddle, g.height)
            == kept + ([p] + Staying(pending[1..], dt, g.paddle, g.height));
      }
    }
  }

  lemma {:induction false} AtCapCaught(g: Game, pending: seq<PowerUp>, kept: seq<PowerUp>, dt: real, env: Env)
    requires g.paddle.w == MaxPaddleWidth
    requires pending != [] && RectsIntersect(PowerUpRect(Fall(pending[0], dt)), PaddleRect(g.paddle))
    ensures PowerUpPass(g, pending, kept, dt, env)
            == ApplyAll(g, CaughtKinds(pending, dt, g.paddle), env).(powerUps := kept + Staying(pending, dt, g.paddle, g.height))
    decreases |pending|, 0
  {
    var p := Fall(pending[0], dt);
    var h := ApplyPowerUp(g, p.kind, env);
    assert h.paddle == g.paddle && h.height == g.height;
    assert PowerUpPass(g, pending, kept, dt, env) == PowerUpPass(h, pending[1..], kept, dt, env);
    PowerUpPassAtCapApplies(h, pending[1..], kept, dt, env);
    var rest := CaughtKinds(pending[1..], dt, g.paddle);
    assert CaughtKinds(pending, dt, g.paddle) == [p.kind] + rest;
    assert ([p.kind] + rest)[1..] == rest;
    assert ApplyAll(g, [p.kind] + rest, env) == ApplyAll(h, rest, env);
    assert Staying(pending, dt, g.paddle, g.height) == Staying(pending[1..], dt, g.paddle, g.height);
  }

  /**
   * Unless a SLOW or MULTI is among the pickups touching the paddle as it
   * ends the pass, the pass leaves the balls alone.
   */
  lemma {:induction false} PowerUpPassKeepsBalls(g: Game, pending: seq<PowerUp>, kept: seq<PowerUp>, dt: real, env: Env)
    requires g.paddle.w <= MaxPaddleWidth
    ensures var r := PowerUpPass(g, pending, kept, dt, env);
            var caught := CaughtKinds(pending, dt, r.paddle);
            Slow !in caught && Multi !in caught ==> r.balls == g.balls
    decreases |pending|
  {
    var r := PowerUpPass(g, pending, kept, dt, env);
    if pending != [] {
      var p := Fall(pending[0], dt);
      var rest := pending[1..];
      if RectsIntersect(PowerUpRect(p), PaddleRect(g.paddle)) {
        var h := ApplyPowerUp(g, p.kind, env);
        assert r == PowerUpPass(h, rest, kept, dt, env);
        PowerUpPassKeepsBalls(h, rest, kept, dt, env);
        PowerUpPassWidens(h, rest, kept, dt, env);
        TouchWider(PowerUpRect(p), g.paddle, r.paddle);
        assert CaughtKinds(pending, dt, r.paddle) == [p.kind] + CaughtKinds(rest, dt, r.paddle);
      } else if p.y > g.height as real + FallLimit {
        assert r == PowerUpPass(g, rest, kept, dt, env);
        PowerUpPassKeepsBalls(g, rest, kept, dt, env);
        assert forall t :: t in CaughtKinds(rest, dt, r.paddle) ==> t in CaughtKinds(pending, dt, r.paddle);
      } else {
        assert r == PowerUpPass(g, rest, kept + [p], dt, env);
        PowerUpPassKeepsBalls(g, rest, kept + [p], dt, env);
        assert forall t :: t in CaughtKinds(rest, dt, r.paddle) ==> t in CaughtKinds(pending, dt, r.paddle);
      }
    }
  }

  /** An EXPAND touching the paddle as it starts the pass widens it by 40 px, up to the cap. */
  lemma {:induction false} PowerUpPassExpands(g: Game, pending: seq<PowerUp>, kept: seq<PowerUp>, dt: real, env: Env)
    requires g.paddle.w <= MaxPaddleWidth
    ensures var r := PowerUpPass(g, pending, kept, dt, env);
            Expand in CaughtKinds(pending, dt, g.paddle) ==> r.paddle.w >= Min(g.paddle.w + ExpandStep, MaxPaddleWidth)
    decreases |pending|
  {
    var r := PowerUpPass(g, pending, kept, dt, env);
    if pending != [] {
      var p := Fall(pending[0], dt);
      var rest := pending[1..];
      if RectsIntersect(PowerUpRect(p), PaddleRect(g.paddle)) {
        var h := ApplyPowerUp(g, p.kind, env);
        assert r == PowerUpPass(h, rest, kept, dt, env);
        PowerUpPassWidens(h, rest, kept, dt, env);
        PowerUpPassExpands(h, rest, kept, dt, env);
        assert CaughtKinds(pending, dt, g.paddle) == [p.kind] + CaughtKinds(rest, dt, g.paddle);
        if p.kind != Expand {
          assert h.paddle == g.paddle;
        }
      } else if p.y > g.height as real + FallLimit {
        assert r == PowerUpPass(g, rest, kept, dt, env);
        PowerUpPassExpands(g, rest, kept, dt, env);
        assert CaughtKinds(pending, dt, g.paddle) == CaughtKinds(rest, dt, g.paddle);
      } else {
        assert r == PowerUpPass(g, rest, kept + [p], dt, env);
        PowerUpPassExpands(g, rest, kept + [p], dt, env);
        assert CaughtKinds(pending, dt, g.paddle) == CaughtKinds(rest, dt, g.paddle);
      }
    }
  }
}

=== FILE: session.dfy ===
/**
 * The state of one game panel and the operations that set it up: a fresh
 * game, a restart, serving a ball onto the paddle and recording the high
 * score.
 */
module Session {
  import opened Geometry
  import opened Entities
  import opened Level
  import opened Optional

  /**
   * Everything the rules read or write.  `left` and `right` are the held
   * movement keys; `lives` counts the spare balls and goes negative when
   * the game is over.
   */
  datatype Game = Game(
    width: int, height: int,
    paddle: Paddle,
    balls: seq<Ball>,
    bricks: seq<Brick>,
    powerUps: seq<PowerUp>,
    left: bool, right: bool,
    score: int, lives: int, level: int, highScore: int,
    paused: bool, waitingToLaunch: bool)

  const StartLives: int := 3
  const StartPaddleWidth: real := 120.0
  const PaddleHeight: real := 14.0

  /** The paddle of a new game: 120 by 14, centred, 50 px above the bottom edge. */
  function StartPaddle(width: int, height: int): (p: Paddle)
    ensures p.x + p.w / 2.0 == width as real / 2.0
    ensures p.y + 50.0 == height as real
    ensures p.w == StartPaddleWidth && p.h == PaddleHeight
  {
    Paddle(width as real / 2.0 - 60.0, height as real - 50.0, StartPaddleWidth, PaddleHeight)
  }

  /** Serves a new sticky ball resting on top of the paddle's centre and waits for the launch. */
  function AddBallOnPaddle(g: Game): (r: Game)
    ensures |r.balls| == |g.balls| + 1 && r.balls[..|g.balls|] == g.balls
    ensures var b := r.balls[|g.balls|];
              && b.sticky && b.vx == 0.0 && b.vy == 0.0 && b.r == 10.0 && b.speed == 300.0
              && b.x == g.paddle.x + g.paddle.w / 2.0 && b.y + b.r == g.paddle.y
    ensures r.waitingToLaunch
    ensures r.(balls := g.balls, waitingToLaunch := g.waitingToLaunch) == g
  {
    g.(balls := g.balls + [BallOnPaddle(g.paddle)], waitingToLaunch := true)
  }

  /**
   * Restart: score 0, three lives, level 1 laid out afresh, the start paddle
   * with one sticky ball, no power-ups, not paused.  The high score, the
   * field size and the held keys carry over.
   */
  function ResetAll(g: Game): (r: Game)
    ensures r.score == 0 && r.lives == StartLives && r.level == 1
    ensures r.bricks == Layout(g.width, 1)
    ensures r.paddle == StartPaddle(g.width, g.height)
    ensures |r.balls| == 1 && r.balls[0].sticky && r.balls[0].speed == 300.0
    ensures r.balls == [BallOnPaddle(r.paddle)]
    ensures r.powerUps == [] && !r.paused && r.waitingToLaunch
    ensures r.width == g.width && r.height == g.height && r.highScore == g.highScore
    ensures r.left == g.left && r.right == g.right
  {
    var cleared := g.(score := 0, lives := StartLives, level := 1,
                    bricks := Layout(g.width, 1),
                    paddle := StartPaddle(g.width, g.height),
                    balls := [], powerUps := [], paused := false);
    AddBallOnPaddle(cleared)
  }

  /** A restart forgets everything but the field size, the held keys and the high score. */
  lemma ResetAllForgets(g: Game, h: Game)
    requires g.width == h.width && g.height == h.height && g.highScore == h.highScore
    requires g.left == h.left && g.right == h.right
    ensures ResetAll(g) == ResetAll(h)
  {
  }

  /** Restarting twice is restarting once. */
  lemma ResetAllIdempotent(g: Game)
    ensures ResetAll(ResetAll(g)) == ResetAll(g)
  {
    ResetAllForgets(ResetAll(g), g);
  }

  /** Level 1 starts with the full grid of 60 bricks, all alive. */
  lemma ResetAllFullGrid(g: Game)
    ensures |ResetAll(g).bricks| == GridSize
    ensures forall i :: 0 <= i < |ResetAll(g).bricks| ==> Alive(ResetAll(g).bricks[i])
  {
    LayoutFull(g.width, 1);
    LayoutAllAlive(g.width, 1);
  }

  /**
   * Records a new best score.  The file write may fail (`written` false),
   * in which case the remembered high score is left as it was.
   */
  function SaveHighScore(g: Game, written: bool): (r: Game)
    ensures r.highScore >= g.highScore
    ensures written ==> r.highScore >= g.score
    ensures r.highScore == g.highScore || r.highScore == g.score
    ensures !written ==> r == g
    ensures r.(highScore := g.highScore) == g
  {
    if g.score > g.highScore && written then g.(highScore := g.score) else g
  }

  /** With a successful write the high score becomes the larger of the two. */
  lemma SaveHighScoreIsMax(g: Game)
    ensures SaveHighScore(g, true).highScore == (if g.score > g.highScore then g.score else g.highScore)
  {
  }

  /** After a successful save, saving again changes nothing. */
  lemma SaveHighScoreIdempotent(g: Game, written: bool)
    ensures SaveHighScore(SaveHighScore(g, true), written) == SaveHighScore(g, true)
  {
  }

  /**
   * A new panel: the stored high score when one could be read and parsed
   * (`stored`), zero otherwise, no keys held, then a restart.
   */
  function NewGame(width: int, height: int, stored: Option<int>): (r: Game)
    ensures r.highScore == stored.GetOr(0)
    ensures r.width == width && r.height == height
    ensures r.score == 0 && r.lives == StartLives && r.level == 1
    ensures !r.left && !r.right && !r.paused && r.waitingToLaunch
    ensures r.bricks == Layout(width, 1) && r.paddle == StartPaddle(width, height) && r.powerUps == []
    ensures r.balls == [BallOnPaddle(r.paddle)]
    ensures ResetAll(r) == r
  {
    var blank := Game(width, height, StartPaddle(width, height), [], [], [],
                      false, false, 0, StartLives, 1, stored.GetOr(0), false, true);
    ResetAllIdempotent(blank);
    ResetAll(blank)
  }
}

=== FILE: tick.dfy ===
/**
 * One fixed-step frame of the game: paddle, served balls, pickups, the
 * balls in flight, and the level-cleared check, in that order.
 */
module Tick {
  import opened Geometry
  import opened Entities
  import opened Level
  import opened Optional
  import opened Session
  import opened Flight
  import opened PowerUps

  const SpeedUp: real := 1.08

  /** Sum of the hit-points of all bricks, dead ones included. */
  function TotalHp(bricks: seq<Brick>): int {
    if bricks == [] then 0 else bricks[0].hp + TotalHp(bricks[1..])
  }

  /** Taking one hit-point off one brick takes one off the total. */
  lemma {:induction false} TotalHpDamage(bricks: seq<Brick>, i: nat)
    requires i < |bricks|
    ensures TotalHp(bricks[i := bricks[i].(hp := bricks[i].hp - 1)]) == TotalHp(bricks) - 1
  {
    var after := bricks[i := bricks[i].(hp := bricks[i].hp - 1)];
    if i == 0 {
      assert after[1..] == bricks[1..];
    } else {
      TotalHpDamage(bricks[1..], i - 1);
      assert after[1..] == bricks[1..][i - 1 := bricks[i].(hp := bricks[i].hp - 1)];
    }
  }

  /**
   * `b` is `a` after some hits: same bricks in the same places, no
   * hit-point gained, dead bricks untouched, none driven below zero.
   */
  predicate Worn(a: seq<Brick>, b: seq<Brick>) {
    && |a| == |b|
    && forall j :: 0 <= j < |a| ==>
         && b[j] == a[j].(hp := b[j].hp) && b[j].hp <= a[j].hp
         && (!Alive(a[j]) ==> b[j] == a[j])
         && (a[j].hp >= 0 ==> b[j].hp >= 0)
  }

  lemma WornTransitive(a: seq<Brick>, b: seq<Brick>, c: seq<Brick>)
    requires Worn(a, b) && Worn(b, c)
    ensures Worn(a, c)
  {
  }

  /**
   * The part of a ball's frame after the walls when it stays in play: the
   * paddle bounce, then a hit on the first live brick it touches, if any.
   * `k` is the ball's position in the frame, for the random drop.
   */
  function Strike(g: Game, b: Ball, k: nat, env: Env): (r: (Game, Ball))
    ensures r.0 == g.(score := r.0.score, bricks := r.0.bricks, powerUps := r.0.powerUps)
    ensures r.1 == b.(y := r.1.y, vx := r.1.vx, vy := r.1.vy)
    ensures r.0.score == g.score || r.0.score == g.score + BrickPoints
    ensures |r.0.powerUps| >= |g.powerUps| && r.0.powerUps[..|g.powerUps|] == g.powerUps
  {
    var n := PaddleBounce(b, g.paddle, env);
    match FirstHit(n, g.bricks, 0)
    case None => (g, n)
    case Some(i) => HitBrick(g, n, i, env.loot(k, i))
  }

  /** A ball that touches no live brick after the paddle bounce changes nothing but itself. */
  lemma StrikeMisses(g: Game, b: Ball, k: nat, env: Env)
    requires var n := PaddleBounce(b, g.paddle, env);
             forall j :: 0 <= j < |g.bricks| ==> !Hits(n, g.bricks[j])
    ensures Strike(g, b, k, env) == (g, PaddleBounce(b, g.paddle, env))
  {
  }

  /**
   * A ball that touches live brick `i` and none before it after the paddle
   * bounce hits that brick: ten points, one hit-point off brick `i` only.
   */
  lemma StrikeHitsFirst(g: Game, b: Ball, k: nat, env: Env, i: nat)
    requires var n := PaddleBounce(b, g.paddle, env);
             i < |g.bricks| && Hits(n, g.bricks[i]) && forall j :: 0 <= j < i ==> !Hits(n, g.bricks[j])
    ensures var n := PaddleBounce(b, g.paddle, env);
            var r := Strike(g, b, k, env);
            && r == HitBrick(g, n, i, env.loot(k, i))
            && r.0.score == g.score + BrickPoints
            && r.0.bricks == g.bricks[i := g.bricks[i].(hp := g.bricks[i].hp - 1)]
  {
    var n := PaddleBounce(b, g.paddle, env);
    FirstHitUnique(n, g.bricks, i);
    assert HitBrick(g, n, i, env.loot(k, i)).0.bricks == g.bricks[i := g.bricks[i].(hp := g.bricks[i].hp - 1)];
  }

  /** Every point scored in a strike is a hit-point taken off a brick. */
  lemma StrikeAccounting(g: Game, b: Ball, k: nat, env: Env)
    ensures var r := Strike(g, b, k, env);
            && r.0.score + 10 * TotalHp(r.0.bricks) == g.score + 10 * TotalHp(g.bricks)
            && Worn(g.bricks, r.0.bricks)
  {
    var n := PaddleBounce(b, g.paddle, env);
    match FirstHit(n, g.bricks, 0)
    case None =>
    case Some(i) => HitAccounting(g, n, i, env.loot(k, i));
  }

  /** A hit on a live brick trades one hit-point for ten points. */
  lemma HitAccounting(g: Game, b: Ball, i: nat, drop: Option<PowerUpType>)
    requires i < |g.bricks| && Alive(g.bricks[i])
    ensures var r := HitBrick(g, b, i, drop);
            && r.0.score + 10 * TotalHp(r.0.bricks) == g.score + 10 * TotalHp(g.bricks)
            && Worn(g.bricks, r.0.bricks)
  {
    TotalHpDamage(g.bricks, i);
    assert HitBrick(g, b, i, drop).0.bricks == g.bricks[i := g.bricks[i].(hp := g.bricks[i].hp - 1)];
  }

  /**
   * The last ball in play is gone: a life is spent; with lives to spare a
   * new ball is served, otherwise the high score is saved and the game
   * freezes until a restart.
   */
  function LoseBall(g: Game, saved: bool): (r: Game)
    ensures r.lives == g.lives - 1
    ensures r.score == g.score && r.bricks == g.bricks && r.level == g.level
    ensures r.paddle == g.paddle && r.powerUps == g.powerUps
    ensures r.width == g.width && r.height == g.height && r.left == g.left && r.right == g.right
    ensures r.lives >= 0 ==> && |r.balls| == |g.balls| + 1 && r.balls[..|g.balls|] == g.balls
                             && r.balls[|g.balls|] == BallOnPaddle(g.paddle)
                             && r.waitingToLaunch && r.paused == g.paused && r.highScore == g.highScore
    ensures r.lives < 0 ==> && r.paused && r.balls == g.balls && r.waitingToLaunch == g.waitingToLaunch
                            && r.highScore == (if saved && g.score > g.highScore then g.score else g.highScore)
  {
    var h := g.(lives := g.lives - 1);
    if h.lives >= 0 then AddBallOnPaddle(h)
    else SaveHighScore(h, saved).(paused := true)
  }

  /**
   * The balls of the frame, in order, over the list as it stood at the start
   * of the pass: `done` holds the balls already handled and still in play,
   * `pending` those not yet handled, `k` the position of the next one.
   * Served balls are skipped; a lost ball is dropped, and when it was the
   * last one in play `LoseBall` ends the pass.
   */
  function BallPass(g: Game, done: seq<Ball>, pending: seq<Ball>, k: nat, dt: real, env: Env): (r: Game)
    ensures |r.balls| <= |done| + |pending|
    decreases |pending|
  {
    if pending == [] then g.(balls := done)
    else
      var b := pending[0];
      if b.sticky then BallPass(g, done + [b], pending[1..], k + 1, dt, env)
      else
        var m := Walls(Advance(b, dt), g.width);
        if Lost(m, g.height) then
          if done == [] && |pending| == 1 then LoseBall(g.(balls := []), env.saved)
          else BallPass(g, done, pending[1..], k + 1, dt, env)
        else
          var s := Strike(g, m, k, env);
          BallPass(s.0, done + [s.1], pending[1..], k + 1, dt, env)
  }

  /** What the ball pass leaves alone: the field, the paddle, the level and the held keys. */
  predicate PlayFrame(g: Game, r: Game) {
    && r.width == g.width && r.height == g.height && r.paddle == g.paddle && r.level == g.level
    && r.left == g.left && r.right == g.right
  }

  /**
   * Points and hit-points balance over the pass: score plus ten times the
   * bricks' total hit-points is unchanged, with at most one hit per ball.
   */
  lemma {:induction false} BallPassBalance(g: Game, done: seq<Ball>, pending: seq<Ball>, k: nat, dt: real, env: Env)
    ensures var r := BallPass(g, done, pending, k, dt, env);
            && r.score + 10 * TotalHp(r.bricks) == g.score + 10 * TotalHp(g.bricks)
            && g.score <= r.score <= g.score + 10 * |pending|
    decreases |pending|
  {
    if pending != [] {
      var b := pending[0];
      if b.sticky {
        BallPassBalance(g, done + [b], pending[1..], k + 1, dt, env);
      } else {
        var m := Walls(Advance(b, dt), g.width);
        if Lost(m, g.height) {
          if !(done == [] && |pending| == 1) {
            BallPassBalance(g, done, pending[1..], k + 1, dt, env);
          }
        } else {
          var s := Strike(g, m, k, env);
          StrikeAccounting(g, m, k, env);
          BallPassBalance(s.0, done + [s.1], pending[1..], k + 1, dt, env);
          assert BallPass(g, done, pending, k, dt, env) == BallPass(s.0, done + [s.1], pending[1..], k + 1, dt, env);
        }
      }
    }
  }

  /** Over the pass the bricks are only worn down. */
  lemma {:induction false} BallPassWorn(g: Game, done: seq<Ball>, pending: seq<Ball>, k: nat, dt: real, env: Env)
    ensures Worn(g.bricks, BallPass(g, done, pending, k, dt, env).bricks)
    decreases |pending|
  {
    if pending != [] {
      var b := pending[0];
      if b.sticky {
        BallPassWorn(g, done + [b], pending[1..], k + 1, dt, env);
      } else {
        var m := Walls(Advance(b, dt), g.width);
        if Lost(m, g.height) {
          if !(done == [] && |pending| == 1) {
            BallPassWorn(g, done, pending[1..], k + 1, dt, env);
          }
        } else {
          var s := Strike(g, m, k, env);
          var r := BallPass(s.0, done + [s.1], pending[1..], k + 1, dt, env);
          StrikeAccounting(g, m, k, env);
          BallPassWorn(s.0, done + [s.1], pending[1..], k + 1, dt, env);
          assert BallPass(g, done, pending, k, dt, env) == r;
          WornTransitive(g.bricks, s.0.bricks, r.bricks);
        }
      }
    }
  }

  /**
   * The pass keeps the field, paddle, level and keys; at most one life is
   * spent, and a pass that pauses the game has ended it.
   */
  lemma {:induction false} BallPassFrame(g: Game, done: seq<Ball>, pending: seq<Ball>, k: nat, dt: real, env: Env)
    ensures var r := BallPass(g, done, pending, k, dt, env);
            && PlayFrame(g, r)
            && (r.lives == g.lives || r.lives == g.lives - 1)
            && (r.paused ==> g.paused || r.lives < 0)
            && |r.powerUps| >= |g.powerUps| && r.powerUps[..|g.powerUps|] == g.powerUps
    decreases |pending|
  {
    if pending != [] {
      var b := pending[0];
      if b.sticky {
        BallPassFrame(g, done + [b], pending[1..], k + 1, dt, env);
      } else {
        var m := Walls(Advance(b, dt), g.width);
        if Lost(m, g.height) {
          if !(done == [] && |pending| == 1) {
            BallPassFrame(g, done, pending[1..], k + 1, dt, env);
          }
        } else {
          var s := Strike(g, m, k, env);
          BallPassFrame(s.0, done + [s.1], pending[1..], k + 1, dt, env);
          assert BallPass(g, done, pending, k, dt, env) == BallPass(s.0, done + [s.1], pending[1..], k + 1, dt, env);
        }
      }
    }
  }

  /** A ball still in play after its flight: a served ball, or one not past the bottom edge. */
  predicate InPlay(b: Ball, dt: real, width: int, height: int) {
    b.sticky || !Lost(Walls(Advance(b, dt), width), height)
  }

  /** The balls of `pending`, in order, that are still in play after their flight. */
  function Kept(pending: seq<Ball>, dt: real, width: int, height: int): seq<Ball>
    decreases |pending|
  {
    if pending == [] then []
    else (if InPlay(pending[0], dt, width, height) then [pending[0]] else []) + Kept(pending[1..], dt, width, height)
  }

  /** No ball is kept exactly when every ball flies out. */
  lemma {:induction false} KeptEmpty(pending: seq<Ball>, dt: real, width: int, height: int)
    ensures Kept(pending, dt, width, height) == [] <==>
            forall j :: 0 <= j < |pending| ==> !InPlay(pending[j], dt, width, height)
    decreases |pending|
  {
    if pending != [] {
      KeptEmpty(pending[1..], dt, width, height);
      assert forall j :: 1 <= j < |pending| ==> pending[j] == pending[1..][j - 1];
    }
  }

  /**
   * A life is spent in the pass exactly when no ball was handled before it,
   * there are balls to handle, and every one of them flies out.  That pass
   * scores nothing, leaves the bricks alone and ends with one ball served
   * on the paddle, or none at game over.
   */
  lemma {:induction false} BallPassLosesLife(g: Game, done: seq<Ball>, pending: seq<Ball>, k: nat, dt: real, env: Env)
    ensures var r := BallPass(g, done, pending, k, dt, env);
            && (r.lives == g.lives - 1 <==> done == [] && pending != [] && Kept(pending, dt, g.width, g.height) == [])
            && (r.lives == g.lives - 1 ==>
                  && r.score == g.score && r.bricks == g.bricks
                  && r.balls == (if r.lives >= 0 then [BallOnPaddle(g.paddle)] else []))
    decreases |pending|, 1
  {
    if pending != [] {
      var b := pending[0];
      var rest := pending[1..];
      if b.sticky {
        BallPassLosesLife(g, done + [b], rest, k + 1, dt, env);
      } else {
        var m := Walls(Advance(b, dt), g.width);
        if Lost(m, g.height) {
          if done == [] && |pending| == 1 {
            LosesLifeLast(g, pending, k, dt, env);
          } else {
            BallPassLosesLife(g, done, rest, k + 1, dt, env);
          }
        } else {
          LosesLifeStruck(g, done, pending, k, dt, env);
        }
      }
    }
  }

  /** The life-loss induction for a lone ball that flies out: the life is spent. */
  lemma LosesLifeLast(g: Game, pending: seq<Ball>, k: nat, dt: real, env: Env)
    requires |pending| == 1 && !InPlay(pending[0], dt, g.width, g.height)
    ensures var r := BallPass(g, [], pending, k, dt, env);
            && r == LoseBall(g.(balls := []), env.saved)
            && Kept(pending, dt, g.width, g.height) == []
            && r.balls == (if r.lives >= 0 then [BallOnPaddle(g.paddle)] else [])
  {
    var r := LoseBall(g.(balls := []), env.saved);
    assert Kept(pending, dt, g.width, g.height) == Kept(pending[1..], dt, g.width, g.height) == [];
    if r.lives >= 0 {
      assert r.balls == [BallOnPaddle(g.paddle)];
    }
  }

  /** The life-loss induction for a first ball that flies on: a ball is now handled, so no life is spent. */
  lemma {:induction false} LosesLifeStruck(g: Game, done: seq<Ball>, pending: seq<Ball>, k: nat, dt: real, env: Env)
    requires pending != [] && !pending[0].sticky
    requires !Lost(Walls(Advance(pending[0], dt), g.width), g.height)
    ensures var r := BallPass(g, done, pending, k, dt, env);
            && r.lives != g.lives - 1
            && Kept(pending, dt, g.width, g.height) != []
    decreases |pending|, 0
  {
    var m := Walls(Advance(pending[0], dt), g.width);
    var s := Strike(g, m, k, env);
    BallPassLosesLife(s.0, done + [s.1], pending[1..], k + 1, dt, env);
    assert BallPass(g, done, pending, k, dt, env) == BallPass(s.0, done + [s.1], pending[1..], k + 1, dt, env);
  }

  /**
   * Whether ball `c` is what the pass makes of ball `b`: a served ball is
   * carried unchanged; a ball in flight keeps its size and speed, is no
   * longer served, and sits where its flight and the walls put it
   * across (the paddle and a brick change only its height and velocity).
   */
  predicate Carries(b: Ball, c: Ball, dt: real, width: int) {
    if b.sticky then c == b
    else !c.sticky && c.r == b.r && c.speed == b.speed && c.x == Walls(Advance(b, dt), width).x
  }

  /**
   * When no life is spent, the balls after the pass are the balls handled
   * before it followed by the kept balls, in order, each carried through
   * its flight; the lost balls are gone.
   */
  lemma {:induction false} BallPassSurvivors(g: Game, done: seq<Ball>, pending: seq<Ball>, k: nat, dt: real, env: Env)
    ensures var r := BallPass(g, done, pending, k, dt, env);
            var kept := Kept(pending, dt, g.width, g.height);
            r.lives == g.lives ==>
              && |r.balls| == |done| + |kept| && r.balls[..|done|] == done
              && forall i :: 0 <= i < |kept| ==> Carries(kept[i], r.balls[|done| + i], dt, g.width)
    decreases |pending|, 1
  {
    if pending != [] {
      var b := pending[0];
      if b.sticky || !Lost(Walls(Advance(b, dt), g.width), g.height) {
        SurvivorsKept(g, done, pending, k, dt, env);
      } else if !(done == [] && |pending| == 1) {
        var r := BallPass(g, done, pending, k, dt, env);
        assert r == BallPass(g, done, pending[1..], k + 1, dt, env);
        BallPassSurvivors(g, done, pending[1..], k + 1, dt, env);
        assert Kept(pending, dt, g.width, g.height) == Kept(pending[1..], dt, g.width, g.height);
      }
    }
  }

  /** The survivors induction for a first ball that stays in play. */
  lemma {:induction false} SurvivorsKept(g: Game, done: seq<Ball>, pending: seq<Ball>, k: nat, dt: real, env: Env)
    requires pending != [] && InPlay(pending[0], dt, g.width, g.height)
    ensures var r := BallPass(g, done, pending, k, dt, env);
            var kept := Kept(pending, dt, g.width, g.height);
            r.lives == g.lives ==>
              && |r.balls| == |done| + |kept| && r.balls[..|done|] == done
              && forall i :: 0 <= i < |kept| ==> Carries(kept[i], r.balls[|done| + i], dt, g.width)
    decreases |pending|, 0
  {
    var b := pending[0];
    var rest := pending[1..];
    var tail := Kept(rest, dt, g.width, g.height);
    assert Kept(pending, dt, g.width, g.height) == [b] + tail;
    var r := BallPass(g, done, pending, k, dt, env);
    if b.sticky {
      assert r == BallPass(g, done + [b], rest, k + 1, dt, env);
      BallPassSurvivors(g, done + [b], rest, k + 1, dt, env);
      if r.lives == g.lives {
        SurvivorsShift(r.balls, done, b, b, tail, dt, g.width);
      }
    } else {
      var m := Walls(Advance(b, dt), g.width);
      var s := Strike(g, m, k, env);
      assert r == BallPass(s.0, done + [s.1], rest, k + 1, dt, env);
      BallPassSurvivors(s.0, done + [s.1], rest, k + 1, dt, env);
      if r.lives == g.lives {
        SurvivorsShift(r.balls, done, b, s.1, tail, dt, g.width);
      }
    }
  }

  /** The step of the survivors induction: a kept ball `b`, carried to `c`, joins the handled balls. */
  lemma SurvivorsShift(balls: seq<Ball>, done: seq<Ball>, b: Ball, c: Ball, tail: seq<Ball>, dt: real, width: int)
    requires Carries(b, c, dt, width)
    requires |balls| == |done| + 1 + |tail| && balls[..|done| + 1] == done + [c]
    requires forall i :: 0 <= i < |tail| ==> Carries(tail[i], balls[|done| + 1 + i], dt, width)
    ensures |balls| == |done| + |[b] + tail| && balls[..|done|] == done
    ensures forall i :: 0 <= i < |[b] + tail| ==> Carries(([b] + tail)[i], balls[|done| + i], dt, width)
  {
    assert balls[..|done|] == (balls[..|done| + 1])[..|done|];
    assert balls[|done|] == (balls[..|done| + 1])[|done|] == c;
    forall i | 0 <= i < |[b] + tail|
      ensures Carries(([b] + tail)[i], balls[|done| + i], dt, width)
    {
      if i > 0 {
        assert ([b] + tail)[i] == tail[i - 1];
        assert balls[|done| + i] == balls[|done| + 1 + (i - 1)];
      }
    }
  }

  /** The level-cleared scan: whether some brick is still alive, looking from the front. */
  predicate AnyAlive(bricks: seq<Brick>) {
    bricks != [] && (Alive(bricks[0]) || AnyAlive(bricks[1..]))
  }

  /** The scan finds a live brick exactly when there is one. */
  lemma {:induction false} AnyAliveIff(bricks: seq<Brick>)
    ensures AnyAlive(bricks) <==> exists i :: 0 <= i < |bricks| && Alive(bricks[i])
  {
    if bricks != [] {
      AnyAliveIff(bricks[1..]);
      if !Alive(bricks[0]) && exists i :: 0 <= i < |bricks| && Alive(bricks[i]) {
        var i :| 0 <= i < |bricks| && Alive(bricks[i]);
        assert Alive(bricks[1..][i - 1]);
      }
    }
  }

  /** Every level has a live brick: row 0, column 1 is never a hole. */
  lemma LayoutHasLiveBrick(width: int, lvl: int, bricks: seq<Brick>)
    requires bricks == Layout(width, lvl)
    ensures AnyAlive(bricks)
  {
    var cell := Cell(0, 1);
    LayoutComplete(lvl, cell);
    LayoutBricks(width, lvl);
    var i :| 0 <= i < |Cells(lvl)| && Cells(lvl)[i] == cell;
    assert Alive(bricks[i]);
    AnyAliveIff(bricks);
  }

  /**
   * Level cleared: with no brick alive the next level is laid out, every
   * ball speeds up by 8%, and a new ball is served if none is left.
   */
  function ClearLevel(g: Game): (r: Game)
    ensures AnyAlive(g.bricks) ==> r == g
    ensures r == g.(level := r.level, bricks := r.bricks, balls := r.balls, waitingToLaunch := r.waitingToLaunch)
    ensures r.score == g.score && r.lives == g.lives && r.paddle == g.paddle && r.paused == g.paused
    ensures !AnyAlive(g.bricks) ==> r.level == g.level + 1 && r.bricks == Layout(g.width, g.level + 1)
    ensures !AnyAlive(g.bricks) && g.balls != [] ==>
              && r.waitingToLaunch == g.waitingToLaunch && |r.balls| == |g.balls|
              && forall i :: 0 <= i < |g.balls| ==> r.balls[i] == Scale(g.balls[i], SpeedUp)
    ensures !AnyAlive(g.bricks) && g.balls == [] ==>
              r.balls == [BallOnPaddle(g.paddle)] && r.waitingToLaunch
  {
    if AnyAlive(g.bricks) then g
    else
      var h := g.(level := g.level + 1, bricks := Layout(g.width, g.level + 1), balls := ScaleAll(g.balls, SpeedUp));
      if h.balls == [] then AddBallOnPaddle(h) else h
  }

  /** After the level-cleared check some brick is alive: the field is never left empty. */
  lemma ClearLevelLeavesLiveBrick(g: Game)
    ensures AnyAlive(ClearLevel(g).bricks)
  {
    if !AnyAlive(g.bricks) {
      LayoutHasLiveBrick(g.width, g.level + 1, ClearLevel(g).bricks);
    }
  }

  /**
   * One frame of `dt` seconds.  A paused game does not change.  Otherwise:
   * steer the paddle, carry served balls, handle the pickups, fly the
   * balls, and move on if the level is cleared.
   */
  function Update(g: Game, dt: real, env: Env): (r: Game)
    ensures g.paused ==> r == g
  {
    if g.paused then g
    else ClearLevel(Play(Catch(Steer(g, dt), dt, env), dt, env))
  }

  /** Steering and carrying the served balls. */
  function Steer(g: Game, dt: real): Game {
    PinSticky(MovePaddle(g, dt))
  }

  /** The pickups in flight, all pending. */
  function Catch(g: Game, dt: real, env: Env): Game {
    PowerUpPass(g, g.powerUps, [], dt, env)
  }

  /** The balls of the frame, all pending. */
  function Play(g: Game, dt: real, env: Env): Game {
    BallPass(g, [], g.balls, 0, dt, env)
  }

  /** The score never falls and moves in steps of ten points. */
  lemma UpdateScore(g: Game, dt: real, env: Env)
    ensures var r := Update(g, dt, env);
            g.score <= r.score && (r.score - g.score) % 10 == 0
  {
    if !g.paused {
      var steered := Steer(g, dt);
      var caught := Catch(steered, dt, env);
      var played := Play(caught, dt, env);
      assert caught.score == g.score by {
        CatchScore(steered, dt, env);
      }
      assert g.score <= played.score && (played.score - g.score) % 10 == 0 by {
        PlayBalance(caught, dt, env);
        TensStep(played.score - caught.score, TotalHp(caught.bricks) - TotalHp(played.bricks));
      }
      assert Update(g, dt, env).score == played.score by {
        assert Update(g, dt, env) == ClearLevel(played);
      }
    }
  }

  lemma TensStep(a: int, d: int)
    requires a == 10 * d
    ensures a % 10 == 0
  {
  }

  /** Catching pickups scores nothing. */
  lemma CatchScore(g: Game, dt: real, env: Env)
    ensures Catch(g, dt, env).score == g.score
  {
    PowerUpPassFrame(g, g.powerUps, [], dt, env);
  }

  /** The balls' pass scores ten points per hit-point taken, and never loses points. */
  lemma PlayBalance(g: Game, dt: real, env: Env)
    ensures var r := Play(g, dt, env);
            g.score <= r.score && r.score - g.score == 10 * (TotalHp(g.bricks) - TotalHp(r.bricks))
  {
    BallPassBalance(g, [], g.balls, 0, dt, env);
  }

  /**
   * The level either stays, or advances by exactly one with that level's
   * fresh layout; either way some brick is alive after the frame, and at
   * most one life is lost.
   */
  lemma UpdateLevel(g: Game, dt: real, env: Env)
    requires !g.paused
    ensures var r := Update(g, dt, env);
            && r.width == g.width && r.height == g.height
            && (r.level == g.level || (r.level == g.level + 1 && r.bricks == Layout(g.width, r.level)))
            && AnyAlive(r.bricks)
            && r.lives >= g.lives - 1
  {
    var steered := Steer(g, dt);
    var caught := Catch(steered, dt, env);
    PowerUpPassFrame(steered, steered.powerUps, [], dt, env);
    BallPassFrame(caught, [], caught.balls, 0, dt, env);
    ClearLevelLeavesLiveBrick(Play(caught, dt, env));
  }

  /**
   * A frame that spends a life while a brick is alive scores nothing, hits
   * no brick and stays on its level: the last ball was lost with no ball
   * handled before it.
   */
  lemma UpdateLosesLife(g: Game, dt: real, env: Env)
    requires !g.paused && AnyAlive(g.bricks)
    requires Update(g, dt, env).lives < g.lives
    ensures var r := Update(g, dt, env);
            && r.lives == g.lives - 1 && r.level == g.level && r.bricks == g.bricks && r.score == g.score
  {
    var steered := Steer(g, dt);
    var caught := Catch(steered, dt, env);
    var played := Play(caught, dt, env);
    PowerUpPassFrame(steered, steered.powerUps, [], dt, env);
    BallPassFrame(caught, [], caught.balls, 0, dt, env);
    assert Update(g, dt, env) == ClearLevel(played);
    BallPassLosesLife(caught, [], caught.balls, 0, dt, env);
  }
}
